=== FILE: README.md ===
# English Flashcards — a Dafny model of the application core

English Flashcards is a small React application for children learning English
words with Hebrew translations. Words are grouped into numbered levels, and a
level opens once every lower level holds at least ten words. Each profile
records its completed levels, its current level and its latest quiz result per
level. A quiz asks up to ten multiple-choice questions, and a score of 70 or
more passes. All data can be exported to a JSON document and imported back,
either replacing the stored data or merging with it.

This project models that core as pure Dafny functions over immutable values:

- `Reducer` is the application reducer (`appReducer`), the single place where
  state changes. It also proves which actions keep the current user equal
  to its entry in the user list.
- `Validation` is `validateImportData`. `Merge` holds `mergeUsers` and
  `mergeWords`. `Importer` holds `importData` and `exportAllData` over an
  explicit `Store` that stands for the browser's local storage. `Codec` is
  the JSON shape of users and words, with its round trips.
- `Levels` covers the level selector: grouping, the available levels, the
  unlock rule, the highest unlocked level and the click guard.
- `Quiz` covers question generation with its random draws as a parameter,
  the answer loop and rounded scoring. `Shuffling` is the shuffle it relies on.
- `Profiles` covers creating a profile. `WordForm` covers the word editor's
  validation and submission. `Panel` covers the import options and the import
  button of the export/import panel.
- The support modules are `Json` (JavaScript values, `typeof` and
  truthiness), `Text` (JavaScript `trim`, UTF-16 length, decimal rendering and
  parsing of integers), `JsMap` (insertion-ordered `Map`), `IntLists`
  (numeric sort, union), `Seqs`, `Arith`, `Optional` and `Domain`
  (the records and the filters used throughout).

The current user is meant to equal its entry in the user list. Most actions
keep it so (`Reducer.MirrorPreserved`), but two do not:

- `LOAD_DATA` can leave the current user out of step with the list; see
  `Reducer.LoadDataCanBreakMirror`.
- `SET_CURRENT_USER` with a stored copy that differs from the listed user of
  the same id does too; see `Reducer.SetCurrentUserMirrorsIff`.

Some functions carry no contract of their own, and lemmas state what they do:

- `Levels.GroupByLevel`: `Levels.GroupByLevelFacts`, `Levels.GroupHoldsItsLevel`
  and `Levels.WordInOwnGroup`. The word list screen builds the same grouping
  and the same ascending level list (src/components/WordListManager.tsx:124-133),
  so these lemmas and `Levels.AvailableLevels` describe that screen too.
- `Levels.IsLevelUnlocked`: `Levels.UnlockedIff`, `Levels.ThresholdIsTen` and
  `Levels.UnlockedDownwardClosed`.
- `Reducer.QuizCurrentUser`: `Reducer.QuizCurrentUserEffect`.
- `Importer.PlanImport`: `Importer.ReplaceAllIgnoresStore`,
  `Importer.MergeModeKeepsEveryUserId`, `Importer.MergeModeKeepsEveryWordId`,
  `Importer.ConcatenationFallback` and `Importer.MergeModeCurrentUser`.
- `Importer.Save`, which writes only non-empty lists and a present current
  user, has a contract of its own. `Importer.ReplaceAllWithoutUsersKeepsStoredUsers`,
  `Importer.MergeImportStoresEveryUserId`, `Importer.MergeImportStoresEveryWordId`
  and `Importer.ExportImportRoundTrip` state what it writes during an import.

## Model

| member | source | states |
|---|---|---|
| Reducer.Reduce | src/context/AppContext.tsx:62-200 | Word actions leave users and the current user alone. User actions leave the words alone. Only SET_CURRENT_LEVEL and SET_LOADING touch those fields. An unknown action returns the state unchanged. |
| Reducer.RecordQuiz | src/context/AppContext.tsx:93-117 | A user's quiz result for the level is overwritten, with attempts one more than before (0 when absent). On a pass the level joins the completed levels and the current level becomes max(current, level+1). On a fail the progress is untouched. Id and name are kept. |
| Reducer.RecordQuizOtherLevels | src/context/AppContext.tsx:95-102 | Recording one level leaves every other level's result present or absent exactly as before, with the same value. |
| Reducer.QuizResultBookkeeping | src/context/AppContext.tsx:90-120 | UPDATE_QUIZ_RESULT changes only the users with the given id. For them the level's result is (score, passed, attempts+1), a pass completes the level, and the current level never decreases. |
| Reducer.PassKeepsProgressOrdered | src/context/AppContext.tsx:105-111 | On an ascending completed list, a pass keeps the list strictly ascending. The level then appears exactly once, no other level is added or lost, and the current level is max(current, level+1). |
| Reducer.TwoPassesCountTwice | src/context/AppContext.tsx:97-109 | Passing a new level twice counts two attempts and still lists the level once. |
| Reducer.QuizCurrentUserEffect | src/context/AppContext.tsx:121-148 | A current user with the id is rebuilt from the first listed user with that id. It becomes that entry after the update, keeping its own id and username. It carries the new result with the entry's attempts plus one, and a pass completes the level. Without a matching current user or list entry, the current user stays as it was. |
| Reducer.QuizMissingUserKeepsCurrent | src/context/AppContext.tsx:121-123 | When no user has the id, UPDATE_QUIZ_RESULT changes neither the user list nor the current user. |
| Reducer.DeleteUserEffect | src/context/AppContext.tsx:70-75 | DELETE_USER removes exactly the users with that id and keeps the others with their multiplicity. The current user becomes null exactly when it had that id or was already null. |
| Reducer.DeleteUserKeepsOrder | src/context/AppContext.tsx:73 | DELETE_USER distributes over concatenation, and a single user is kept exactly when its id differs. The remaining users therefore keep their order. |
| Domain.WithoutUserAppend | src/context/AppContext.tsx:73 | Filtering out an id from a concatenation is the concatenation of the filtered parts. |
| Reducer.ResetUserProgressEffect | src/context/AppContext.tsx:177-188 | RESET_USER_PROGRESS gives each user with the id, and the current user if it has that id, empty completed levels, level 1 and no quiz results. Every other user is untouched. A current user with another id, or none, stays as it was. |
| Reducer.UpdateUserProgressEffect | src/context/AppContext.tsx:77-88 | UPDATE_USER_PROGRESS gives each user with the id, and the current user if it has that id, the new progress. Every other user keeps its place and value. A current user with another id, or none, stays as it was. |
| Reducer.UpdateWordEffect | src/context/AppContext.tsx:157-163 | UPDATE_WORD replaces every word with the payload's id by the payload and keeps every other word in place. An unknown id changes nothing. |
| Reducer.DeleteWordEffect | src/context/AppContext.tsx:165-169 | DELETE_WORD removes exactly the words with the id and keeps every other word with its multiplicity. |
| Reducer.DeleteWordKeepsOrder | src/context/AppContext.tsx:165-169 | DELETE_WORD keeps the remaining words in their order. It distributes over concatenation, and it drops a single word exactly when the word has the id. |
| Reducer.WordEditsEffect | src/context/AppContext.tsx:157-169 | Combines the UPDATE_WORD and DELETE_WORD effects above. |
| Reducer.BulkAndUnknownActions | src/context/AppContext.tsx:67-198 | LOAD_DATA replaces exactly the users and words. ADD_USER appends the user without touching the current user. An unknown action changes nothing. |
| Reducer.MirrorPreserved | src/context/AppContext.tsx:62-200 | If the current user equals the first listed user with its id, every action keeps that true except LOAD_DATA and a SET_CURRENT_USER whose user is not that listed entry. |
| Reducer.SetCurrentUserMirrorsIff | src/context/AppContext.tsx:64-65 | After SET_CURRENT_USER the current user mirrors its entry exactly when the user set is the first listed user with its id. Setting null always mirrors. |
| Reducer.LoadDataCanBreakMirror | src/context/AppContext.tsx:190-195 | LOAD_DATA with a list lacking the current user's id leaves a current user that no listed user mirrors. |
| Validation.Validate | src/utils/exportImport.ts:53-122 | A falsy or non-object payload gives exactly one "expected JSON object" error. A verdict is valid exactly when no error was collected. Validation throws exactly when an object payload has a null or undefined user or word entry. |
| Validation.ValidIffWellFormed | src/utils/exportImport.ts:53-122 | A payload is accepted exactly when it meets an independent description: the version is absent or a string, and the user and word lists are absent or arrays of well-formed entries. |
| Validation.NotArrayReportedOnce | src/utils/exportImport.ts:68-70 | "Users data must be an array" appears once when users is truthy but not an array, and never otherwise. The same holds for words. |
| Validation.UserEntryErrorsExact | src/utils/exportImport.ts:72-91 | Each of the six user-entry errors is reported for entry i exactly when its condition holds. The progress sub-checks run only when progress is an object. |
| Validation.WordEntryErrorsExact | src/utils/exportImport.ts:101-116 | Each of the five word-entry errors is reported for entry i exactly when its condition holds. For level, the condition is not a number or below 1. |
| Merge.MergeUser | src/utils/exportImport.ts:130-151 | A colliding user keeps its id and takes the imported name. Its completed levels are the strictly ascending union. Its current level is the larger of the two. Its quiz results cover both key sets, with imported entries winning. |
| Merge.MergeUsers | src/utils/exportImport.ts:125-158 | The merged ids are the stored ids followed by the new imported ids, each once, in first-appearance order. |
| Merge.MergedEntry | src/utils/exportImport.ts:125-158 | The user found under an id is the last stored user with that id, merged in turn with each imported user of that id. |
| Merge.MergeCollision | src/utils/exportImport.ts:129-151 | With distinct ids on each side, a stored and an imported user sharing an id come out as MergeUser of the two. |
| Merge.MergeNewUser | src/utils/exportImport.ts:152-154 | An imported user whose id is not stored comes out as it is. |
| Merge.MergeUntouchedUser | src/utils/exportImport.ts:126-157 | A stored user whose id is not imported comes out as it is. |
| Merge.MergeWords | src/utils/exportImport.ts:161-169 | The ids are the stored then the new ids, each once, in first-appearance order. The word under each id is the last word with that id in stored-then-imported order. |
| Merge.LastWordSplit | src/utils/exportImport.ts:164-166 | An imported word overrides every stored word of the same id. Otherwise the last stored word stays. |
| Importer.ImportData | src/utils/exportImport.ts:172-249 | A payload the validator rejects, or on which it throws, fails with zero counts and no writes. An accepted payload succeeds, reports the lengths of its users and words arrays (0 when absent), and writes the import plan into the store through the skip-empty writes. |
| Importer.MergeImportStoresEveryUserId | src/utils/exportImport.ts:201-202 | After an accepted import with user merging, the stored user ids are the old ids followed by the new ones, each once. |
| Importer.MergeImportStoresEveryWordId | src/utils/exportImport.ts:209-210 | After an accepted import with word merging, the stored word ids are the old ids followed by the new ones, each once. |
| Importer.Save | src/utils/exportImport.ts:222-232 | Each slot ends up with the planned value or the stored one. The plan wins when it is non-empty or the store is empty. So a save never empties a list or clears the current user. |
| Importer.ExportPlan | src/utils/exportImport.ts:191-195 | Under replace-all, an export plans to write back exactly the exported users, words and current user, whatever the store. |
| Importer.ReplaceAllIgnoresStore | src/utils/exportImport.ts:191-195 | Under replace-all, the plan does not depend on the stored data. Its users and words are the payload's lists, or empty when they are absent. |
| Importer.MergeModeKeepsEveryUserId | src/utils/exportImport.ts:201-202 | With the user merge flag and an imported users array, the final user ids are the stored ids followed by the new imported ids, each once. |
| Importer.MergeModeKeepsEveryWordId | src/utils/exportImport.ts:209-210 | With the word merge flag and an imported words array, the final word ids are the stored ids followed by the new imported ids, each once. |
| Importer.ConcatenationFallback | src/utils/exportImport.ts:201-215 | Without the merge flag a present list is appended to the stored one. An absent list keeps the stored one. |
| Importer.MergeModeCurrentUser | src/utils/exportImport.ts:217-220 | Outside replace-all, the imported current user is kept exactly when it is truthy and its id is among the final users. |
| Importer.ReplaceAllWithoutUsersKeepsStoredUsers | src/utils/exportImport.ts:191-195 | Replace-all with no or an empty users list leaves the stored users, because empty lists are not saved. |
| Importer.ExportValidates | src/utils/exportImport.ts:19-31 | The export of a store whose users and words have non-empty fields and levels of at least 1 passes validation. |
| Importer.ExportImportRoundTrip | src/utils/exportImport.ts:19-31 | Importing an export with replace-all succeeds with the store's counts and writes back the exported users, words and current user, except for empty lists and a null user. Importing it into the same store leaves the store unchanged. |
| Codec.UsersRoundTrip | src/context/AppContext.tsx:4-18 | Decoding the JSON form of a user list gives the list back. |
| Codec.WordsRoundTrip | src/context/AppContext.tsx:20-26 | Decoding the JSON form of a word list gives the list back. |
| Levels.GroupByLevelFacts | src/components/LevelSelector.tsx:14-20 | A level has a group exactly when some word has that level. The group is the words of that level, in list order. |
| Levels.GroupHoldsItsLevel | src/components/LevelSelector.tsx:14-20 | Every word in a group has the group's level. Each word of that level appears with its multiplicity in the list. |
| Levels.WordInOwnGroup | src/components/LevelSelector.tsx:14-20 | Every word lies in the group of its own level. |
| Levels.AvailableLevels | src/components/LevelSelector.tsx:23 | The available levels are strictly ascending. They are exactly the grouped levels, which are exactly the levels of some word. The list is empty exactly when there are no words. |
| Levels.GetLevelInfo | src/components/LevelSelector.tsx:26-34 | New words are those of exactly the level. Total words are those at or below it. New never exceeds total. |
| Levels.TotalWordsMonotone | src/components/LevelSelector.tsx:28 | The cumulative total never decreases as the level grows. |
| Levels.UnlockedIff | src/components/LevelSelector.tsx:37-49 | Level 1 is always open. A level is open exactly when it is 1 or every level from 1 below it has at least ten words. |
| Levels.ThresholdIsTen | src/components/LevelSelector.tsx:43 | Above an open level, the next level opens with ten words and stays shut with nine. |
| Levels.UnlockedDownwardClosed | src/components/LevelSelector.tsx:37-49 | Every level from 1 up to an open level is open. |
| Levels.IsLevelCompleted | src/components/LevelSelector.tsx:52-54 | With no current user nothing is completed. Otherwise a level is completed exactly when it is in the user's completed list. |
| Levels.MaxUnlockedLevel | src/components/LevelSelector.tsx:57-59 | The result is at least 1, is 1 or an open available level, and bounds every open available level. |
| Levels.HandleLevelClick | src/components/LevelSelector.tsx:61-65 | A click selects the level exactly when it is open, and then selects that level. |
| Levels.ClickSelectsOnlyUnlocked | src/components/LevelSelector.tsx:37-65 | A click on a level above 1 selects it exactly when every lower level has ten words. |
| Shuffling.Shuffle | src/utils/__tests__/arrayUtils.test.ts:5-25 | Whatever the draws, the result has the input's length and is a permutation of it. The input is a value and is not changed. |
| Shuffling.ShuffleReachesEvery | src/utils/__tests__/arrayUtils.test.ts:39-66 | Every permutation of the input is the shuffle of some draws. |
| Shuffling.ShuffleSmall | src/utils/__tests__/arrayUtils.test.ts:27-37 | Empty and one-element inputs come back unchanged. |
| Quiz.Distractors | src/components/Quiz.tsx:49-52 | The distractor words differ from the asked word in id and in english text. They are drawn without repetition from the other words, and there are min(3, available) of them. |
| Quiz.MakeQuestion | src/components/Quiz.tsx:47-62 | The answer is the word's english text. It appears exactly once among the options, which are a permutation of the answer and the distractors' texts, 1 + min(3, available) in number. |
| Quiz.QuizWords | src/components/Quiz.tsx:43-44 | min(10, candidates) words are drawn without repetition. With at most ten candidates, all are asked. |
| Quiz.GenerateQuestions | src/components/Quiz.tsx:31-70 | With no word at or below the level, the previous questions stay. Otherwise there are min(10, candidates) questions, asking candidate words without repetition. |
| Quiz.GeneratedQuestion | src/components/Quiz.tsx:35-62 | Every generated question asks a word at or below the level and has its english text as the answer. That answer appears exactly once among 1 + min(3, others) options. |
| Quiz.SmallLevelAsksEveryWord | src/components/Quiz.tsx:42-44 | With at most ten candidates, each candidate is asked exactly as often as it occurs. |
| Quiz.EmptyLevelGivesNoQuestions | src/components/Quiz.tsx:35-40 | Starting from no questions, generation leaves none exactly when no word is at or below the level. |
| Quiz.HandleNextQuestion | src/components/Quiz.tsx:76-87 | The selection is appended to the answers. The run advances with a cleared selection exactly when the question is not the last. Otherwise it finishes with one answer per question. |
| Quiz.CorrectCount | src/components/Quiz.tsx:90-92 | The count is at most the number of answers. It is full exactly when every answer is right and 0 exactly when none is. |
| Quiz.CorrectCountIsHits | src/components/Quiz.tsx:90-92 | The count equals the number of positions whose answer is that question's correct answer. |
| Quiz.Score | src/components/Quiz.tsx:94-95 | The score is the percentage rounded half up, within 0..100. A quiz passes exactly when the score is at least 70, which holds exactly when 200·correct ≥ 139·questions. |
| Quiz.TenQuestionsPassAtSeven | src/components/Quiz.tsx:94-95 | Out of ten questions, seven correct answers pass and six fail. |
| Quiz.ScoreExtremes | src/components/Quiz.tsx:90-95 | All answers right score 100 and pass. None right scores 0 and fails. |
| Profiles.CreateUser | src/components/UserProfileManager.tsx:16-55 | An all-whitespace name is rejected as empty. A trimmed name under 2 UTF-16 units is too short. A name equal ignoring case to an existing one is taken. Otherwise a fresh profile with the trimmed name, level 1 and no results is appended and made current. Each outcome happens exactly when its condition holds. |
| Profiles.CreateKeepsNamesDistinct | src/components/UserProfileManager.tsx:30-34 | If no two profiles share a name ignoring case, creating one keeps that so. |
| Profiles.CreateKeepsMirror | src/components/UserProfileManager.tsx:46-47 | With an unused id, the created profile is current and mirrors its entry in the list. |
| WordForm.ValidateForm | src/components/WordListManager.tsx:28-50 | Each field is flagged exactly when its condition holds: emoji, english or hebrew blank after trimming, or level below 1. Flags come in form order. The form is valid exactly when no field is flagged. |
| WordForm.SubmittedWord | src/components/WordListManager.tsx:71-89 | The submitted word carries the trimmed fields and the level. Its id is the edited word's id when editing and the new id otherwise. |
| WordForm.HandleSubmit | src/components/WordListManager.tsx:64-94 | An invalid form is rejected with its flagged fields. A valid one dispatches a word with non-empty fields and level at least 1, leaving the users alone. |
| WordForm.SubmitEffect | src/components/WordListManager.tsx:71-91 | Editing replaces the words with the edited id in place. Adding appends the new word. |
| WordForm.EditUnchangedIsIdentity | src/components/WordListManager.tsx:96-105 | Opening a tidy word and submitting unchanged dispatches that same word, and the word list is unchanged. |
| Panel.HandleOptionChange | src/components/ExportImport.tsx:86-108 | Replace-all is set exactly when replace-all is switched on. Switching it on clears both merge flags, and switching it off sets both. A merge flag change sets that flag and keeps the other. Replace-all and merging are never selected together. |
| Panel.ChangesKeepExclusive | src/components/ExportImport.tsx:86-108 | Any series of option changes keeps replace-all and merging exclusive. After a non-empty series, replace-all is on exactly when the last change switched it on. |
| Panel.InitialExclusive | src/components/ExportImport.tsx:24-28 | The initial options merge both lists, do not replace, and are exclusive. |
| Panel.HandleImport | src/components/ExportImport.tsx:62-84 | With no preview, or a falsy parsed value (null, false, 0, empty string), importing does nothing. Otherwise it shows the import result and takes the resulting store. A failed import leaves the store as it was. |
| Panel.ImportOfExportRestores | src/components/ExportImport.tsx:62-75 | Importing a file exported from a valid store with replace-all shows a success. The store then holds the exported users, words and current user, except that empty lists and a null user are not written. |
| Text.TrimEmptyIffAllSpace | src/components/UserProfileManager.tsx:20-23 | A trimmed string is empty exactly when every character is JavaScript whitespace. |
| Text.TrimIdempotent | src/components/WordListManager.tsx:75-77 | Trimming a trimmed string changes nothing. |

## Left out

- Local storage is an explicit `Store` value holding users, words and the current user. `loadUsers`, `saveUsers` and the other storage helpers are not part of this model beyond that. Parse failures of stored JSON are not modelled.
- Export dates, the generated user id and the generated word id are parameters, because they come from the clock and from `Math.random`.
- `shuffleArray` itself is not part of this model. `Shuffling.Shuffle` is a draw-driven permutation standing in for it, with the randomness as a parameter.
- `downloadDataAsFile` and `parseJsonFile` are file and browser I/O. `window.location.reload`, `window.confirm` and all rendering (JSX, CSS, screen-reader hooks) are left out.
- Floating point is left out. `Quiz.Score` uses exact integer rounding, which agrees with `Math.round(c / n * 100)` for the at most ten questions a quiz has.
- JSON numbers are integers. NaN, fractional levels and `parseInt` of text are not modelled, so a form level is an integer.
- `Codec` decodes the parts validation does not check leniently, with defaults. Examples are the current user and the elements of `completedLevels`.
- `toLowerCase` is modelled for ASCII letters only.
- The message of an exception caught by `importData` is a parameter of `Importer.Describe`.
- Importer.ExportAllData: its contract states only the version. What an export contains is stated by Importer.ExportValidates and Importer.ExportImportRoundTrip.
- Quiz.GenerateQuestions: its contract gives the count and the sub-multiset. The per-question facts are in Quiz.GeneratedQuestion.
- WordForm.HandleSubmit: its contract states validity and the users. The effect on the word list is in WordForm.SubmitEffect.
- Reducer.MirrorPreserved: it does not cover LOAD_DATA, or SET_CURRENT_USER with a user that is not its listed entry. The application dispatches the stored current user after matching only its id, so the invariant can fail there. The two exceptions are exhibited by Reducer.LoadDataCanBreakMirror and Reducer.SetCurrentUserMirrorsIff.

=== FILE: arith.dfy ===
/** Facts about integer multiplication and division that the solver does not find alone. */
module Arith {

  lemma MulCancel(d: int, x: int, y: int)
    requires d > 0 && d * x < d * y
    ensures x < y
  {
    assert d * y - d * x == d * (y - x);
  }

  /** An integer quotient is pinned down by its bracketing multiples. */
  lemma DivUnique(a: int, d: int, q: int)
    requires d > 0 && d * q <= a < d * q + d
    ensures a / d == q
  {
    var q' := a / d;
    assert d * q' + a % d == a;
    MulCancel(d, q', q + 1);
    MulCancel(d, q, q' + 1);
  }

  /** A remainder by a larger divisor is the number itself. */
  lemma ModSmall(a: int, d: int)
    requires 0 <= a < d
    ensures a % d == a
  {
    DivUnique(a, d, 0);
    assert d * (a / d) + a % d == a;
  }
}

=== FILE: codec.dfy ===
/**
 * Reading the typed records out of a parsed payload, and writing them as the
 * JSON the export produces. Only the fields the validator checks are read
 * exactly; the others are read leniently (see README).
 */
module Codec {
  import opened Json
  import opened Domain
  import Validation

  function StringOr(j: Json): string {
    if j.JString? then j.s else ""
  }

  function IntOr(j: Json): int {
    if j.JNumber? then j.n else 0
  }

  /** The numeric entries of an array. */
  function Numbers(items: seq<Json>): (r: seq<int>)
    ensures forall x :: x in r <==> JNumber(x) in items
  {
    if |items| == 0 then []
    else (if items[0].JNumber? then [items[0].n] else []) + Numbers(items[1..])
  }

  function DecodeResult(j: Json): QuizResult {
    QuizResult(IntOr(Get(j, "score")), Get(j, "passed") == JBool(true), IntOr(Get(j, "attempts")))
  }

  function DecodeResults(j: Json): map<string, QuizResult> {
    if j.JObject? then map k | k in j.fields :: DecodeResult(j.fields[k]) else map[]
  }

  function DecodeUser(j: Json): User {
    var p := Get(j, "progress");
    var levels := Get(p, "completedLevels");
    User(StringOr(Get(j, "id")), StringOr(Get(j, "username")),
         Progress(if levels.JArray? then Numbers(levels.items) else [], IntOr(Get(p, "currentLevel"))),
         DecodeResults(Get(j, "quizResults")))
  }

  function DecodeWord(j: Json): Word {
    Word(StringOr(Get(j, "id")), StringOr(Get(j, "emoji")), StringOr(Get(j, "english")),
         StringOr(Get(j, "hebrew")), IntOr(Get(j, "level")))
  }

  function DecodeUsers(items: seq<Json>): (r: seq<User>)
    ensures |r| == |items|
    ensures forall i :: 0 <= i < |items| ==> r[i] == DecodeUser(items[i])
  {
    seq(|items|, i requires 0 <= i < |items| => DecodeUser(items[i]))
  }

  function DecodeWords(items: seq<Json>): (r: seq<Word>)
    ensures |r| == |items|
    ensures forall i :: 0 <= i < |items| ==> r[i] == DecodeWord(items[i])
  {
    seq(|items|, i requires 0 <= i < |items| => DecodeWord(items[i]))
  }

  // ----- writing -----

  function EncodeInts(xs: seq<int>): (r: seq<Json>)
    ensures |r| == |xs|
    ensures forall i :: 0 <= i < |xs| ==> r[i] == JNumber(xs[i])
  {
    seq(|xs|, i requires 0 <= i < |xs| => JNumber(xs[i]))
  }

  function EncodeResult(q: QuizResult): Json {
    JObject(map["score" := JNumber(q.score), "passed" := JBool(q.passed), "attempts" := JNumber(q.attempts)])
  }

  function EncodeUser(u: User): Json {
    JObject(map[
      "id" := JString(u.id),
      "username" := JString(u.username),
      "progress" := JObject(map["completedLevels" := JArray(EncodeInts(u.progress.completedLevels)),
                                "currentLevel" := JNumber(u.progress.currentLevel)]),
      "quizResults" := JObject(map k | k in u.quizResults :: EncodeResult(u.quizResults[k]))])
  }

  function EncodeWord(w: Word): Json {
    JObject(map["id" := JString(w.id), "emoji" := JString(w.emoji), "english" := JString(w.english),
                "hebrew" := JString(w.hebrew), "level" := JNumber(w.level)])
  }

  function EncodeUsers(us: seq<User>): (r: seq<Json>)
    ensures |r| == |us|
    ensures forall i :: 0 <= i < |us| ==> r[i] == EncodeUser(us[i])
  {
    seq(|us|, i requires 0 <= i < |us| => EncodeUser(us[i]))
  }

  function EncodeWords(ws: seq<Word>): (r: seq<Json>)
    ensures |r| == |ws|
    ensures forall i :: 0 <= i < |ws| ==> r[i] == EncodeWord(ws[i])
  {
    seq(|ws|, i requires 0 <= i < |ws| => EncodeWord(ws[i]))
  }

  // ----- round trips -----

  lemma {:induction false} NumbersOfEncoded(xs: seq<int>)
    ensures Numbers(EncodeInts(xs)) == xs
  {
    if |xs| > 0 {
      assert EncodeInts(xs)[1..] == EncodeInts(xs[1..]);
      NumbersOfEncoded(xs[1..]);
    }
  }

  lemma ResultsRoundTrip(m: map<string, QuizResult>)
    ensures DecodeResults(JObject(map k | k in m :: EncodeResult(m[k]))) == m
  {
    var j := JObject(map k | k in m :: EncodeResult(m[k]));
    forall k | k in m ensures DecodeResult(j.fields[k]) == m[k] {
      assert j.fields[k] == EncodeResult(m[k]);
    }
  }

  lemma UserRoundTrip(u: User)
    ensures DecodeUser(EncodeUser(u)) == u
  {
    var j := EncodeUser(u);
    var p := Get(j, "progress");
    assert Get(j, "id") == JString(u.id);
    assert Get(j, "username") == JString(u.username);
    assert Get(p, "completedLevels") == JArray(EncodeInts(u.progress.completedLevels));
    assert Get(p, "currentLevel") == JNumber(u.progress.currentLevel);
    NumbersOfEncoded(u.progress.completedLevels);
    ResultsRoundTrip(u.quizResults);
    assert Get(j, "quizResults") == JObject(map k | k in u.quizResults :: EncodeResult(u.quizResults[k]));
  }

  lemma WordRoundTrip(w: Word)
    ensures DecodeWord(EncodeWord(w)) == w
  {
  }

  lemma UsersRoundTrip(us: seq<User>)
    ensures DecodeUsers(EncodeUsers(us)) == us
  {
    forall i | 0 <= i < |us| ensures DecodeUser(EncodeUser(us[i])) == us[i] {
      UserRoundTrip(us[i]);
    }
  }

  lemma WordsRoundTrip(ws: seq<Word>)
    ensures DecodeWords(EncodeWords(ws)) == ws
  {
    forall i | 0 <= i < |ws| ensures DecodeWord(EncodeWord(ws[i])) == ws[i] {
      WordRoundTrip(ws[i]);
    }
  }

  /** What the validator demands of a stored user and word. */
  predicate ValidUser(u: User) {
    u.id != "" && u.username != ""
  }

  predicate ValidWord(w: Word) {
    w.id != "" && w.emoji != "" && w.english != "" && w.hebrew != "" && w.level >= 1
  }

  /** A written record passes the import checks exactly when its fields are acceptable. */
  lemma EncodedUserWellFormed(u: User)
    ensures Validation.WellFormedUser(EncodeUser(u)) <==> ValidUser(u)
  {
  }

  lemma EncodedWordWellFormed(w: Word)
    ensures Validation.WellFormedWord(EncodeWord(w)) <==> ValidWord(w)
  {
  }
}

=== FILE: domain.dfy ===
/**
 * The records of the application: words, users with their progress and
 * per-level quiz results.
 */
module Domain {
  import opened Optional
  import Text

  /** The latest attempt at one level's quiz and how many attempts were made. */
  datatype QuizResult = QuizResult(score: int, passed: bool, attempts: int)

  datatype Progress = Progress(completedLevels: seq<int>, currentLevel: int)

  /**
   * A profile. `quizResults` is a JavaScript object indexed by level; its keys
   * are the decimal renderings of the levels, see LevelKey.
   */
  datatype User = User(id: string, username: string, progress: Progress,
                       quizResults: map<string, QuizResult>)

  datatype Word = Word(id: string, emoji: string, english: string, hebrew: string, level: int)

  /** The progress of a new or reset profile. */
  const FreshProgress: Progress := Progress([], 1)

  /** The property name under which `quizResults[level]` is stored. */
  function LevelKey(level: int): string {
    Text.IntToString(level)
  }

  lemma LevelKeyInjective(a: int, b: int)
    ensures LevelKey(a) == LevelKey(b) <==> a == b
  {
    Text.IntToStringInjective(a, b);
  }

  /** `users.find(u => u.id === id)`: the first user with that id. */
  function FindUser(users: seq<User>, id: string): (r: Option<User>)
    ensures r.None? <==> forall i :: 0 <= i < |users| ==> users[i].id != id
    ensures r.Some? ==> exists i :: 0 <= i < |users| && users[i] == r.value
                          && (forall j :: 0 <= j < i ==> users[j].id != id)
    ensures r.Some? ==> r.value.id == id
  {
    if |users| == 0 then None
    else if users[0].id == id then Some(users[0])
    else
      var r := FindUser(users[1..], id);
      assert forall i :: 1 <= i < |users| ==> users[i] == users[1..][i - 1];
      r
  }

  ghost predicate HasUserId(users: seq<User>, id: string) {
    exists i :: 0 <= i < |users| && users[i].id == id
  }

  /** `users.filter(u => u.id !== id)`. */
  function WithoutUser(users: seq<User>, id: string): (r: seq<User>)
    ensures forall u :: u in r <==> u in users && u.id != id
    ensures forall u: User :: u.id != id ==> multiset(r)[u] == multiset(users)[u]
    ensures |r| <= |users|
  {
    if |users| == 0 then []
    else
      var rest := WithoutUser(users[1..], id);
      assert users == [users[0]] + users[1..];
      if users[0].id == id then rest else [users[0]] + rest
  }

  /** Removing users distributes over concatenation, so the remaining users keep their order. */
  lemma {:induction false} WithoutUserAppend(a: seq<User>, b: seq<User>, id: string)
    ensures WithoutUser(a + b, id) == WithoutUser(a, id) + WithoutUser(b, id)
  {
    if |a| > 0 {
      assert (a + b)[1..] == a[1..] + b;
      WithoutUserAppend(a[1..], b, id);
    } else {
      assert a + b == b;
    }
  }

  /** A single user is kept exactly when its id differs. */
  lemma WithoutUserSingle(u: User, id: string)
    ensures WithoutUser([u], id) == if u.id == id then [] else [u]
  {
  }

  /** The predicates the source filters the word inventory with. */
  datatype WordTest =
    | IdIsNot(id: string)
    | LevelIs(level: int)
    | LevelAtMost(level: int)
    | OtherThan(word: Word)   // a different id and a different english text

  predicate Holds(t: WordTest, w: Word) {
    match t
    case IdIsNot(id) => w.id != id
    case LevelIs(l) => w.level == l
    case LevelAtMost(l) => w.level <= l
    case OtherThan(q) => w.id != q.id && w.english != q.english
  }

  /** `words.filter(test)`. */
  function FilterWords(words: seq<Word>, t: WordTest): (r: seq<Word>)
    ensures forall w :: w in r <==> w in words && Holds(t, w)
    ensures |r| <= |words|
  {
    if |words| == 0 then []
    else
      var rest := FilterWords(words[1..], t);
      assert words == [words[0]] + words[1..];
      if Holds(t, words[0]) then [words[0]] + rest else rest
  }

  /** Filtering keeps every passing word as often as it occurs, and drops the rest. */
  lemma {:induction false} FilterWordsCounts(words: seq<Word>, t: WordTest)
    ensures forall w: Word :: multiset(FilterWords(words, t))[w] == if Holds(t, w) then multiset(words)[w] else 0
  {
    if |words| > 0 {
      FilterWordsCounts(words[1..], t);
      assert words == [words[0]] + words[1..];
    }
  }

  /** Filtering distributes over concatenation, so it keeps the original order. */
  lemma {:induction false} FilterWordsAppend(a: seq<Word>, b: seq<Word>, t: WordTest)
    ensures FilterWords(a + b, t) == FilterWords(a, t) + FilterWords(b, t)
  {
    if |a| > 0 {
      assert (a + b)[1..] == a[1..] + b;
      FilterWordsAppend(a[1..], b, t);
    } else {
      assert a + b == b;
    }
  }

  /** The number of words passing a test. */
  function CountWords(words: seq<Word>, t: WordTest): nat {
    |FilterWords(words, t)|
  }
}

=== FILE: importer.dfy ===
/**
 * `exportAllData` and `importData`. The browser storage is a record of the
 * three persisted entries, so an import maps a store to a result and a new
 * store.
 */
module Importer {
  import opened Optional
  import opened Json
  import opened Domain
  import opened Validation
  import opened Codec
  import opened Merge
  import Text
  import Seqs

  /** The three storage entries; an absent or unreadable entry reads as [] or null. */
  datatype Store = Store(users: seq<User>, words: seq<Word>, currentUser: Option<User>)

  datatype ImportOptions = ImportOptions(mergeUsers: bool, mergeWords: bool, replaceAll: bool)

  datatype ImportMessage =
    | ValidationFailed(errors: seq<ValidationError>)
    | ExceptionRaised                      // the TypeError thrown while validating
    | Imported(users: nat, words: nat)

  datatype ImportResult = ImportResult(success: bool, message: ImportMessage, importedUsers: nat, importedWords: nat)

  datatype ImportOutcome = ImportOutcome(result: ImportResult, store: Store)

  /** The exported snapshot, without its timestamp. */
  datatype ExportData = ExportData(version: string, users: seq<User>, words: seq<Word>, currentUser: Option<User>)

  function ExportAllData(s: Store): (x: ExportData)
    ensures x.version == "1.0"
  {
    ExportData("1.0", s.users, s.words, s.currentUser)
  }

  /** The JSON text of an export, as `JSON.stringify` writes it and `JSON.parse` reads it back. */
  function EncodeExport(x: ExportData, exportDate: string): Json {
    JObject(map[
      "version" := JString(x.version),
      "exportDate" := JString(exportDate),
      "users" := JArray(EncodeUsers(x.users)),
      "words" := JArray(EncodeWords(x.words)),
      "currentUser" := if x.currentUser.Some? then EncodeUser(x.currentUser.value) else JNull])
  }

  /** `data.users?.length || 0` once the payload is valid. */
  function ImportedCount(list: Json): nat {
    if list.JArray? then |list.items| else 0
  }

  /** `data.users || []`. */
  function ImportedUsers(list: Json): seq<User> {
    if list.JArray? then DecodeUsers(list.items) else []
  }

  function ImportedWords(list: Json): seq<Word> {
    if list.JArray? then DecodeWords(list.items) else []
  }

  /** `finalUsers.some(u => u.id === data.currentUser?.id)`. */
  predicate ListsUserOf(users: seq<User>, current: Json) {
    exists i :: 0 <= i < |users| && JString(users[i].id) == Get(current, "id")
  }

  /** The three values an import decides on, before the writes. */
  datatype Plan = Plan(users: seq<User>, words: seq<Word>, currentUser: Option<User>)

  function PlanImport(s: Store, data: Json, options: ImportOptions): Plan {
    var users := Get(data, "users");
    var words := Get(data, "words");
    var current := Get(data, "currentUser");
    if options.replaceAll then
      Plan(ImportedUsers(users), ImportedWords(words),
           if Truthy(current) then Some(DecodeUser(current)) else None)
    else
      var finalUsers :=
        if options.mergeUsers && Truthy(users) then MergeUsers(s.users, ImportedUsers(users))
        else if Truthy(users) then s.users + ImportedUsers(users)
        else s.users;
      var finalWords :=
        if options.mergeWords && Truthy(words) then MergeWords(s.words, ImportedWords(words))
        else if Truthy(words) then s.words + ImportedWords(words)
        else s.words;
      Plan(finalUsers, finalWords,
           if Truthy(current) && ListsUserOf(finalUsers, current) then Some(DecodeUser(current)) else None)
  }

  /** The writes: empty lists and a null current user are not saved. */
  function Save(s: Store, p: Plan): (r: Store)
    // each slot ends up holding either the planned value or the stored one
    ensures r.users == p.users || r.users == s.users
    ensures r.words == p.words || r.words == s.words
    ensures r.currentUser == p.currentUser || r.currentUser == s.currentUser
    // the plan wins whenever it has something, or the store has nothing
    ensures |p.users| > 0 || |s.users| == 0 ==> r.users == p.users
    ensures |p.words| > 0 || |s.words| == 0 ==> r.words == p.words
    ensures p.currentUser.Some? || s.currentUser.None? ==> r.currentUser == p.currentUser
    // so saving never empties a list or clears the current user
    ensures |r.users| > 0 <==> |p.users| > 0 || |s.users| > 0
    ensures |r.words| > 0 <==> |p.words| > 0 || |s.words| > 0
    ensures r.currentUser.Some? <==> p.currentUser.Some? || s.currentUser.Some?
  {
    Store(if |p.users| > 0 then p.users else s.users,
          if |p.words| > 0 then p.words else s.words,
          if p.currentUser.Some? then p.currentUser else s.currentUser)
  }

  /** `importData(data, options)` run against the store s. */
  function ImportData(s: Store, data: Json, options: ImportOptions): (r: ImportOutcome)
    // a payload the validator does not accept fails with no counts and no writes
    ensures Validate(data) != Returned(Verdict(true, [])) ==>
              && !r.result.success
              && r.result.importedUsers == 0 && r.result.importedWords == 0
              && r.store == s
    ensures Validate(data) == Returned(Verdict(true, [])) ==>
              && r.result.success
              && r.result.importedUsers == ImportedCount(Get(data, "users"))
              && r.result.importedWords == ImportedCount(Get(data, "words"))
              && r.store == Save(s, PlanImport(s, data, options))
  {
    match Validate(data)
    case Threw => ImportOutcome(ImportResult(false, ExceptionRaised, 0, 0), s)
    case Returned(v) =>
      if !v.isValid then ImportOutcome(ImportResult(false, ValidationFailed(v.errors), 0, 0), s)
      else
        var nu := ImportedCount(Get(data, "users"));
        var nw := ImportedCount(Get(data, "words"));
        ImportOutcome(ImportResult(true, Imported(nu, nw), nu, nw), Save(s, PlanImport(s, data, options)))
  }

  /**
   * The message of a result; `thrown` is the message of the error the
   * validator raised, which comes from the JavaScript engine.
   */
  function Describe(r: ImportResult, thrown: string): string {
    match r.message
    case ValidationFailed(errors) => "Import failed: " + JoinMessages(errors)
    case ExceptionRaised => "Import failed: " + thrown
    case Imported(u, w) =>
      "Import successful! " + Text.IntToString(u) + " users and " + Text.IntToString(w) + " words imported."
  }

  /** `errors.join(', ')`. */
  function JoinMessages(errors: seq<ValidationError>): string {
    if |errors| == 0 then ""
    else if |errors| == 1 then Message(errors[0])
    else Message(errors[0]) + ", " + JoinMessages(errors[1..])
  }

  // ----- properties of the import modes -----

  /** Replace-all decides on the payload alone: the stored data plays no part. */
  lemma ReplaceAllIgnoresStore(s: Store, t: Store, data: Json, options: ImportOptions)
    requires options.replaceAll
    ensures PlanImport(s, data, options) == PlanImport(t, data, options)
    ensures PlanImport(s, data, options).users == ImportedUsers(Get(data, "users"))
    ensures PlanImport(s, data, options).words == ImportedWords(Get(data, "words"))
  {
  }

  /**
   * With the user merge flag and an imported list, every stored and every
   * imported user id survives, each once: stored ids first, then the new ones.
   */
  lemma MergeModeKeepsEveryUserId(s: Store, data: Json, options: ImportOptions)
    requires !options.replaceAll && options.mergeUsers && Get(data, "users").JArray?
    ensures UserIds(PlanImport(s, data, options).users)
            == Seqs.Dedup(UserIds(s.users) + UserIds(DecodeUsers(Get(data, "users").items)))
  {
    var users := Get(data, "users");
    var imported := DecodeUsers(users.items);
    assert Truthy(users) && ImportedUsers(users) == imported;
    var merged := MergeUsers(s.users, imported);
    assert PlanImport(s, data, options).users == merged;
  }

  /** The same for words under the word merge flag. */
  lemma MergeModeKeepsEveryWordId(s: Store, data: Json, options: ImportOptions)
    requires !options.replaceAll && options.mergeWords && Get(data, "words").JArray?
    ensures WordIds(PlanImport(s, data, options).words)
            == Seqs.Dedup(WordIds(s.words) + WordIds(DecodeWords(Get(data, "words").items)))
  {
    var words := Get(data, "words");
    var imported := DecodeWords(words.items);
    assert Truthy(words) && ImportedWords(words) == imported;
    var merged := MergeWords(s.words, imported);
    assert PlanImport(s, data, options).words == merged;
  }

  /**
   * What the merge mode writes: after an accepted import with the user merge
   * flag, the stored user ids are the old ones followed by the new ones, each once.
   */
  lemma MergeImportStoresEveryUserId(s: Store, data: Json, options: ImportOptions)
    requires Validate(data) == Returned(Verdict(true, []))
    requires !options.replaceAll && options.mergeUsers && Get(data, "users").JArray?
    ensures UserIds(ImportData(s, data, options).store.users)
            == Seqs.Dedup(UserIds(s.users) + UserIds(DecodeUsers(Get(data, "users").items)))
  {
    MergeModeKeepsEveryUserId(s, data, options);
  }

  /** The same for words under the word merge flag. */
  lemma MergeImportStoresEveryWordId(s: Store, data: Json, options: ImportOptions)
    requires Validate(data) == Returned(Verdict(true, []))
    requires !options.replaceAll && options.mergeWords && Get(data, "words").JArray?
    ensures WordIds(ImportData(s, data, options).store.words)
            == Seqs.Dedup(WordIds(s.words) + WordIds(DecodeWords(Get(data, "words").items)))
  {
    MergeModeKeepsEveryWordId(s, data, options);
  }

  /** Without the merge flag, present data is appended to the stored list as it is. */
  lemma ConcatenationFallback(s: Store, data: Json, options: ImportOptions)
    requires Validate(data) == Returned(Verdict(true, []))
    requires !options.replaceAll
    ensures !options.mergeUsers && Get(data, "users").JArray? ==>
              PlanImport(s, data, options).users == s.users + DecodeUsers(Get(data, "users").items)
    ensures !options.mergeWords && Get(data, "words").JArray? ==>
              PlanImport(s, data, options).words == s.words + DecodeWords(Get(data, "words").items)
    ensures !Truthy(Get(data, "users")) ==> PlanImport(s, data, options).users == s.users
    ensures !Truthy(Get(data, "words")) ==> PlanImport(s, data, options).words == s.words
  {
  }

  /** In merge mode the imported current user is kept only when the final users list has its id. */
  lemma MergeModeCurrentUser(s: Store, data: Json, options: ImportOptions)
    requires !options.replaceAll
    ensures var p := PlanImport(s, data, options);
            var current := Get(data, "currentUser");
            (p.currentUser.Some? <==> Truthy(current) && ListsUserOf(p.users, current))
            && (p.currentUser.Some? ==> p.currentUser == Some(DecodeUser(current)))
  {
  }

  /** Replacing with a payload that has no users keeps the stored users. */
  lemma ReplaceAllWithoutUsersKeepsStoredUsers(s: Store, data: Json)
    requires Validate(data) == Returned(Verdict(true, []))
    requires !Get(data, "users").JArray? || |Get(data, "users").items| == 0
    ensures ImportData(s, data, ImportOptions(false, false, true)).store.users == s.users
  {
  }

  /** The stored data passes the import checks. */
  predicate ValidStore(s: Store) {
    (forall i :: 0 <= i < |s.users| ==> ValidUser(s.users[i]))
    && (forall i :: 0 <= i < |s.words| ==> ValidWord(s.words[i]))
  }

  lemma EncodedUsersWellFormed(us: seq<User>)
    requires forall i :: 0 <= i < |us| ==> ValidUser(us[i])
    ensures WellFormedList(JArray(EncodeUsers(us)), true)
  {
    forall i | 0 <= i < |us| ensures WellFormedUser(EncodeUsers(us)[i]) {
      EncodedUserWellFormed(us[i]);
    }
  }

  lemma EncodedWordsWellFormed(ws: seq<Word>)
    requires forall i :: 0 <= i < |ws| ==> ValidWord(ws[i])
    ensures WellFormedList(JArray(EncodeWords(ws)), false)
  {
    forall i | 0 <= i < |ws| ensures WellFormedWord(EncodeWords(ws)[i]) {
      EncodedWordWellFormed(ws[i]);
    }
  }

  /** An export of a store whose records are valid is accepted by the validator. */
  lemma ExportValidates(s: Store, exportDate: string)
    requires ValidStore(s)
    ensures Validate(EncodeExport(ExportAllData(s), exportDate)) == Returned(Verdict(true, []))
  {
    var data := EncodeExport(ExportAllData(s), exportDate);
    EncodedUsersWellFormed(s.users);
    EncodedWordsWellFormed(s.words);
    assert Get(data, "version") == JString("1.0");
    assert Get(data, "users") == JArray(EncodeUsers(s.users));
    assert Get(data, "words") == JArray(EncodeWords(s.words));
    assert WellFormedPayload(data);
    ValidIffWellFormed(data);
  }

  /**
   * Importing an export with replaceAll restores the exported users, words and
   * current user; only an empty list or a null current user leaves the
   * target's entry in place. Imported into the store it came from, it changes nothing.
   */
  lemma ExportImportRoundTrip(s: Store, target: Store, exportDate: string)
    requires ValidStore(s)
    ensures var r := ImportData(target, EncodeExport(ExportAllData(s), exportDate), ImportOptions(false, false, true));
            && r.result.success
            && r.result.importedUsers == |s.users| && r.result.importedWords == |s.words|
            && r.store.users == (if |s.users| > 0 then s.users else target.users)
            && r.store.words == (if |s.words| > 0 then s.words else target.words)
            && r.store.currentUser == (if s.currentUser.Some? then s.currentUser else target.currentUser)
    ensures ImportData(s, EncodeExport(ExportAllData(s), exportDate), ImportOptions(false, false, true)).store == s
  {
    var data := EncodeExport(ExportAllData(s), exportDate);
    var options := ImportOptions(false, false, true);
    var plan := Plan(s.users, s.words, s.currentUser);
    ExportValidates(s, exportDate);
    ExportPlan(s, target, exportDate);
    ExportPlan(s, s, exportDate);
    assert ImportData(target, data, options).store == Save(target, plan);
    assert ImportData(s, data, options).store == Save(s, plan);
    UsersRoundTrip(s.users);
    WordsRoundTrip(s.words);
    assert Get(data, "users") == JArray(EncodeUsers(s.users));
    assert Get(data, "words") == JArray(EncodeWords(s.words));
  }

  /** Under replace-all, an export plans to write back exactly what was exported. */
  lemma ExportPlan(s: Store, target: Store, exportDate: string)
    ensures PlanImport(target, EncodeExport(ExportAllData(s), exportDate), ImportOptions(false, false, true))
            == Plan(s.users, s.words, s.currentUser)
  {
    var data := EncodeExport(ExportAllData(s), exportDate);
    var users := Get(data, "users");
    var words := Get(data, "words");
    var current := Get(data, "currentUser");
    assert users == JArray(EncodeUsers(s.users));
    UsersRoundTrip(s.users);
    assert ImportedUsers(users) == s.users;
    assert words == JArray(EncodeWords(s.words));
    WordsRoundTrip(s.words);
    assert ImportedWords(words) == s.words;
    if s.currentUser.Some? {
      assert current == EncodeUser(s.currentUser.value);
      UserRoundTrip(s.currentUser.value);
      assert Truthy(current) && DecodeUser(current) == s.currentUser.value;
    } else {
      assert current == JNull;
    }
  }
}

=== FILE: intlists.dfy ===
/**
 * Lists of level numbers: `sort((a, b) => a - b)` and the ascending,
 * duplicate-free level lists it produces.
 */
module IntLists {
  import opened Seqs

  ghost predicate NonDecreasing(s: seq<int>) {
    forall i, j :: 0 <= i < j < |s| ==> s[i] <= s[j]
  }

  ghost predicate StrictlyAscending(s: seq<int>) {
    forall i, j :: 0 <= i < j < |s| ==> s[i] < s[j]
  }

  /** Inserts x before the first element not smaller than it. */
  function Insert(x: int, s: seq<int>): (r: seq<int>)
    requires NonDecreasing(s)
    ensures NonDecreasing(r)
    ensures multiset(r) == multiset(s) + multiset{x}
    ensures |r| == |s| + 1
    ensures r[0] == if |s| == 0 || x <= s[0] then x else s[0]
  {
    if |s| == 0 then [x]
    else if x <= s[0] then
      ConsNonDecreasing(x, s);
      [x] + s
    else
      var t := Insert(x, s[1..]);
      assert s == [s[0]] + s[1..];
      ConsNonDecreasing(s[0], t);
      [s[0]] + t
  }

  /** Putting an element no larger than the head in front keeps a list sorted. */
  lemma ConsNonDecreasing(a: int, t: seq<int>)
    requires NonDecreasing(t)
    requires |t| > 0 ==> a <= t[0]
    ensures NonDecreasing([a] + t)
  {
    var r := [a] + t;
    forall i, j | 0 <= i < j < |r| ensures r[i] <= r[j] {
      assert r[j] == t[j - 1];
      if i > 0 {
        assert r[i] == t[i - 1];
      }
    }
  }

  /** A numeric ascending sort: the unique non-decreasing permutation of s. */
  function Sort(s: seq<int>): (r: seq<int>)
    ensures NonDecreasing(r)
    ensures multiset(r) == multiset(s)
    ensures |r| == |s|
  {
    if |s| == 0 then []
    else
      var init := s[..|s| - 1];
      var x := s[|s| - 1];
      assert s == init + [x];
      assert multiset(s) == multiset(init) + multiset{x};
      Insert(x, Sort(init))
  }

  /** A sorted list whose elements each occur once is strictly ascending. */
  lemma SortedDistinctIsAscending(s: seq<int>)
    requires NonDecreasing(s)
    requires forall x :: multiset(s)[x] <= 1
    ensures StrictlyAscending(s)
  {
    forall i, j | 0 <= i < j < |s| ensures s[i] < s[j] {
      assert s == s[..i] + [s[i]] + s[i + 1..j] + [s[j]] + s[j + 1..];
      assert multiset(s)[s[i]] >= 1 + (if s[j] == s[i] then 1 else 0);
    }
  }

  /** `Array.from(new Set([...a, ...b])).sort((x, y) => x - y)`. */
  function AscendingUnion(a: seq<int>, b: seq<int>): (r: seq<int>)
    ensures StrictlyAscending(r)
    ensures forall x :: x in r <==> x in a || x in b
  {
    var d := Dedup(a + b);
    var r := Sort(d);
    SortDedupFacts(a + b);
    r
  }

  lemma SortDedupFacts(s: seq<int>)
    ensures StrictlyAscending(Sort(Dedup(s)))
    ensures forall x :: x in Sort(Dedup(s)) <==> x in s
  {
    var d := Dedup(s);
    var r := Sort(d);
    forall x ensures multiset(r)[x] <= 1 { NoDupsCount(d, x); }
    SortedDistinctIsAscending(r);
    forall x ensures x in r <==> x in s {
      assert x in r <==> x in multiset(r);
      assert x in d <==> x in multiset(d);
      if x in s {
        var i :| 0 <= i < |s| && s[i] == x;
      }
      if x in d {
        var i :| 0 <= i < |d| && d[i] == x;
      }
    }
  }

  /** An ascending list adding one new element stays ascending after sorting. */
  lemma InsertFreshKeepsAscending(s: seq<int>, x: int)
    requires StrictlyAscending(s)
    requires x !in s
    ensures StrictlyAscending(Sort(s + [x]))
    ensures multiset(Sort(s + [x]))[x] == 1
  {
    var r := Sort(s + [x]);
    forall y ensures multiset(r)[y] <= 1 {
      assert NoDups(s + [x]);
      NoDupsCount(s + [x], y);
    }
    SortedDistinctIsAscending(r);
  }

  /** In a strictly ascending list every element occurs exactly once. */
  lemma AscendingCountsOne(s: seq<int>, x: int)
    requires StrictlyAscending(s)
    requires x in s
    ensures multiset(s)[x] == 1
  {
    NoDupsCount(s, x);
  }
}

=== FILE: jsmap.dfy ===
/**
 * A JavaScript `Map` with string keys: entries in insertion order, keys
 * unique, `set` on a present key replaces its value in place.
 */
module JsMap {
  import opened Optional
  import opened Seqs

  type Entries<V> = seq<(string, V)>

  function Keys<V>(m: Entries<V>): (r: seq<string>)
    ensures |r| == |m|
    ensures forall i :: 0 <= i < |m| ==> r[i] == m[i].0
  {
    seq(|m|, i requires 0 <= i < |m| => m[i].0)
  }

  function Values<V>(m: Entries<V>): (r: seq<V>)
    ensures |r| == |m|
    ensures forall i :: 0 <= i < |m| ==> r[i] == m[i].1
  {
    seq(|m|, i requires 0 <= i < |m| => m[i].1)
  }

  /** `map.get(k)`: the value of the first entry with key k. */
  function Get<V>(m: Entries<V>, k: string): (r: Option<V>)
    ensures r.None? <==> k !in Keys(m)
  {
    if |m| == 0 then None
    else if m[0].0 == k then Some(m[0].1)
    else
      assert Keys(m) == [m[0].0] + Keys(m[1..]);
      Get(m[1..], k)
  }

  /** `map.set(k, v)`: replace the value in place, or append a new entry. */
  function Set<V>(m: Entries<V>, k: string, v: V): Entries<V> {
    if |m| == 0 then [(k, v)]
    else if m[0].0 == k then [(k, v)] + m[1..]
    else [m[0]] + Set(m[1..], k, v)
  }

  /** `set` keeps the key order and appends a key it has not seen. */
  lemma {:induction false} SetKeys<V>(m: Entries<V>, k: string, v: V)
    ensures Keys(Set(m, k, v)) == if k in Keys(m) then Keys(m) else Keys(m) + [k]
  {
    if |m| > 0 {
      KeysCons(m[0], m[1..]);
      assert m == [m[0]] + m[1..];
      if m[0].0 == k {
        KeysCons((k, v), m[1..]);
      } else {
        SetKeys(m[1..], k, v);
        KeysCons(m[0], Set(m[1..], k, v));
      }
    }
  }

  /** After `set(k, v)`, k reads v and every other key reads as before. */
  lemma {:induction false} GetAfterSet<V>(m: Entries<V>, k: string, v: V, k': string)
    ensures Get(Set(m, k, v), k') == if k' == k then Some(v) else Get(m, k')
  {
    if |m| > 0 {
      var r := Set(m, k, v);
      if m[0].0 == k {
        assert r[1..] == m[1..];
      } else {
        assert r[1..] == Set(m[1..], k, v);
        GetAfterSet(m[1..], k, v, k');
      }
    }
  }

  /** The value of the last pair with key k. */
  function LastValue<V>(pairs: seq<(string, V)>, k: string): Option<V> {
    if |pairs| == 0 then None
    else if pairs[|pairs| - 1].0 == k then Some(pairs[|pairs| - 1].1)
    else LastValue(pairs[..|pairs| - 1], k)
  }

  /** The last pair with key k in p + q is in q when q has one, in p otherwise. */
  lemma {:induction false} LastValueAppend<V>(p: seq<(string, V)>, q: seq<(string, V)>, k: string)
    ensures LastValue(p + q, k) == if k in Keys(q) then LastValue(q, k) else LastValue(p, k)
  {
    if |q| == 0 {
      assert p + q == p;
    } else {
      var n := |q| - 1;
      AppendSnoc(p, q);
      assert Keys(q) == Keys(q[..n]) + [q[n].0];
      LastValueAppend(p, q[..n], k);
    }
  }

  /** `pairs.forEach(([k, v]) => map.set(k, v))`. */
  function SetAll<V>(m: Entries<V>, pairs: seq<(string, V)>): Entries<V> {
    if |pairs| == 0 then m
    else
      var n := |pairs| - 1;
      Set(SetAll(m, pairs[..n]), pairs[n].0, pairs[n].1)
  }

  /** Setting a list of pairs: keys in first-appearance order, each reading its last value. */
  lemma SetAllFacts<V>(m: Entries<V>, pairs: seq<(string, V)>, k: string)
    requires NoDups(Keys(m))
    ensures Keys(SetAll(m, pairs)) == Dedup(Keys(m) + Keys(pairs))
    ensures Get(SetAll(m, pairs), k) == if LastValue(pairs, k).Some? then LastValue(pairs, k) else Get(m, k)
  {
    SetAllKeys(m, pairs);
    SetAllGet(m, pairs, k);
  }

  lemma {:induction false} SetAllKeys<V>(m: Entries<V>, pairs: seq<(string, V)>)
    requires NoDups(Keys(m))
    ensures Keys(SetAll(m, pairs)) == Dedup(Keys(m) + Keys(pairs))
  {
    if |pairs| == 0 {
      assert Keys(m) + Keys(pairs) == Keys(m);
      DedupOfDistinct(Keys(m));
    } else {
      var n := |pairs| - 1;
      var (k, v) := pairs[n];
      var prev := SetAll(m, pairs[..n]);
      SetAllKeys(m, pairs[..n]);
      SetExtendsDedup(prev, Keys(m) + Keys(pairs[..n]), k, v);
      KeysSnoc(Keys(m), pairs);
    }
  }

  /** A map whose keys are the first appearances in s, after `set(k, v)`, has those of s + [k]. */
  lemma SetExtendsDedup<V>(m: Entries<V>, s: seq<string>, k: string, v: V)
    requires Keys(m) == Dedup(s)
    ensures Keys(Set(m, k, v)) == Dedup(s + [k])
  {
    SetKeys(m, k, v);
    DedupSnoc(s, k);
  }

  lemma KeysCons<V>(e: (string, V), m: Entries<V>)
    ensures Keys([e] + m) == [e.0] + Keys(m)
  {
  }

  lemma KeysSnoc<V>(a: seq<string>, pairs: seq<(string, V)>)
    requires |pairs| > 0
    ensures a + Keys(pairs) == (a + Keys(pairs[..|pairs| - 1])) + [pairs[|pairs| - 1].0]
  {
    assert Keys(pairs) == Keys(pairs[..|pairs| - 1]) + [pairs[|pairs| - 1].0];
  }

  lemma DedupSnoc(s: seq<string>, k: string)
    ensures Dedup(s + [k]) == if k in Dedup(s) then Dedup(s) else Dedup(s) + [k]
  {
    assert (s + [k])[..|s|] == s;
  }

  lemma {:induction false} SetAllGet<V>(m: Entries<V>, pairs: seq<(string, V)>, k: string)
    ensures Get(SetAll(m, pairs), k) == if LastValue(pairs, k).Some? then LastValue(pairs, k) else Get(m, k)
  {
    if |pairs| > 0 {
      var n := |pairs| - 1;
      SetAllGet(m, pairs[..n], k);
      GetAfterSet(SetAll(m, pairs[..n]), pairs[n].0, pairs[n].1, k);
    }
  }

  lemma {:induction false} DedupOfDistinct(s: seq<string>)
    requires NoDups(s)
    ensures Dedup(s) == s
  {
    if |s| > 0 {
      DedupOfDistinct(s[..|s| - 1]);
    }
  }

  lemma {:induction false} SetAllAppend<V>(m: Entries<V>, p: seq<(string, V)>, q: seq<(string, V)>)
    ensures SetAll(m, p + q) == SetAll(SetAll(m, p), q)
  {
    if |q| == 0 {
      assert p + q == p;
    } else {
      var n := |q| - 1;
      SetAllAppend(m, p, q[..n]);
      AppendSnoc(p, q);
      assert SetAll(m, p + q) == Set(SetAll(m, p + q[..n]), q[n].0, q[n].1);
    }
  }

  lemma AppendSnoc<T>(p: seq<T>, q: seq<T>)
    requires |q| > 0
    ensures (p + q)[..|p + q| - 1] == p + q[..|q| - 1]
    ensures (p + q)[|p + q| - 1] == q[|q| - 1]
  {
  }

  /** `new Map(pairs)`: later pairs overwrite earlier ones with the same key. */
  function FromEntries<V>(pairs: seq<(string, V)>): (r: Entries<V>)
    ensures Keys(r) == Dedup(Keys(pairs))
    ensures NoDups(Keys(r))
    ensures forall k :: Get(r, k) == LastValue(pairs, k)
  {
    var empty: Entries<V> := [];
    var r := SetAll(empty, pairs);
    assert Keys(empty) + Keys(pairs) == Keys(pairs);
    forall k ensures Get(r, k) == LastValue(pairs, k) { SetAllFacts(empty, pairs, k); }
    SetAllFacts(empty, pairs, "");
    r
  }
}

=== FILE: json.dfy ===
/**
 * The untyped value `JSON.parse` produces, with the JavaScript operators the
 * import validator applies to it: truthiness, `typeof`, `Array.isArray` and
 * property access. Numbers are integers.
 */
module Json {

  datatype Json =
    | JUndefined            // the value of a missing property
    | JNull
    | JBool(b: bool)
    | JNumber(n: int)
    | JString(s: string)
    | JArray(items: seq<Json>)
    | JObject(fields: map<string, Json>)

  /** The results of `typeof` that a parsed value can have. */
  datatype JsType = TUndefined | TObject | TBoolean | TNumber | TString

  function TypeOf(j: Json): JsType {
    match j
    case JUndefined => TUndefined
    case JNull => TObject          // typeof null === 'object'
    case JBool(_) => TBoolean
    case JNumber(_) => TNumber
    case JString(_) => TString
    case JArray(_) => TObject
    case JObject(_) => TObject
  }

  /** JavaScript truthiness: `undefined`, `null`, `false`, `0` and `''` are falsy. */
  predicate Truthy(j: Json) {
    match j
    case JUndefined => false
    case JNull => false
    case JBool(b) => b
    case JNumber(n) => n != 0
    case JString(s) => s != ""
    case JArray(_) => true
    case JObject(_) => true
  }

  /** Reading a property of `null` or `undefined` throws a TypeError. */
  predicate IsNullish(j: Json) {
    j.JUndefined? || j.JNull?
  }

  /** `j[key]` for a value that is not nullish; only objects carry the properties read here. */
  function Get(j: Json, key: string): Json {
    if j.JObject? && key in j.fields then j.fields[key] else JUndefined
  }

  /** `!!x && typeof x === 'string'`: a non-empty string. */
  predicate IsNonEmptyString(j: Json) {
    Truthy(j) && TypeOf(j) == TString
  }

  lemma NonEmptyStringShape(j: Json)
    ensures IsNonEmptyString(j) <==> j.JString? && j.s != ""
  {
  }
}

=== FILE: levels.dfy ===
/**
 * The level policy of the level selector: words grouped by level, the
 * available levels, the per-level counts and the unlocking rule.
 */
module Levels {
  import opened Optional
  import opened Seqs
  import opened IntLists
  import opened Domain

  /** A level unlocks once every lower level holds this many words. */
  const UnlockThreshold := 10

  // ----- grouping -----

  /** The `level` field of every word, in order. */
  function LevelsOf(words: seq<Word>): (r: seq<int>)
    ensures |r| == |words|
    ensures forall i :: 0 <= i < |words| ==> r[i] == words[i].level
  {
    seq(|words|, i requires 0 <= i < |words| => words[i].level)
  }

  /** A level has a group exactly when some word has that level. */
  lemma {:induction false} HasGroupIff(words: seq<Word>, l: int)
    ensures |FilterWords(words, LevelIs(l))| > 0 <==> l in LevelsOf(words)
  {
    var r := FilterWords(words, LevelIs(l));
    if |r| > 0 {
      assert r[0] in r;
      var i :| 0 <= i < |words| && words[i] == r[0];
      assert LevelsOf(words)[i] == l;
    }
    if l in LevelsOf(words) {
      var i :| 0 <= i < |words| && LevelsOf(words)[i] == l;
      assert words[i] in r;
    }
  }

  /**
   * `words.reduce(...)` into a record of lists keyed by level: each word is
   * pushed onto the list of its level, which is created when first needed.
   */
  function GroupByLevel(words: seq<Word>): map<int, seq<Word>> {
    if |words| == 0 then map[]
    else
      var g := GroupByLevel(words[..|words| - 1]);
      var w := words[|words| - 1];
      g[w.level := (if w.level in g then g[w.level] else []) + [w]]
  }

  /** A level has a group exactly when some word has it, and the group lists its words in order. */
  lemma {:induction false} GroupByLevelFacts(words: seq<Word>, l: int)
    ensures l in GroupByLevel(words) <==> |FilterWords(words, LevelIs(l))| > 0
    ensures l in GroupByLevel(words) ==> GroupByLevel(words)[l] == FilterWords(words, LevelIs(l))
  {
    if |words| > 0 {
      var p := words[..|words| - 1];
      var w := words[|words| - 1];
      assert words == p + [w];
      var g := GroupByLevel(p);
      assert GroupByLevel(words) == g[w.level := (if w.level in g then g[w.level] else []) + [w]];
      GroupByLevelFacts(p, l);
      FilterWordsAppend(p, [w], LevelIs(l));
      assert FilterWords([w], LevelIs(l)) == if w.level == l then [w] else [];
    }
  }

  /** Every word lands in the group of its own level. */
  lemma WordInOwnGroup(words: seq<Word>, i: nat)
    requires i < |words|
    ensures var g := GroupByLevel(words);
            words[i].level in g && words[i] in g[words[i].level]
  {
    GroupByLevelFacts(words, words[i].level);
    assert words[i] in FilterWords(words, LevelIs(words[i].level));
  }

  /**
   * A group holds only words of its own level, each as often as the word
   * list has it, in their original order.
   */
  lemma GroupHoldsItsLevel(words: seq<Word>, l: int)
    requires l in GroupByLevel(words)
    ensures GroupByLevel(words)[l] == FilterWords(words, LevelIs(l))
    ensures forall w :: w in GroupByLevel(words)[l] ==> w.level == l
    ensures forall w: Word :: multiset(GroupByLevel(words)[l])[w] == if w.level == l then multiset(words)[w] else 0
  {
    GroupByLevelFacts(words, l);
    FilterWordsCounts(words, LevelIs(l));
  }

  /**
   * `Object.keys(wordsByLevel).map(Number).sort((a, b) => a - b)`: the keys
   * of the grouping in numeric order (the key order of the record does not
   * survive the sort).
   */
  function AvailableLevels(words: seq<Word>): (r: seq<int>)
    ensures StrictlyAscending(r)
    ensures forall l :: l in r <==> l in GroupByLevel(words)
    ensures forall l :: l in r <==> exists i :: 0 <= i < |words| && words[i].level == l
    ensures |r| == 0 <==> |words| == 0
  {
    SortedLevelsFacts(words);
    Sort(Dedup(LevelsOf(words)))
  }

  lemma SortedLevelsFacts(words: seq<Word>)
    ensures var r := Sort(Dedup(LevelsOf(words)));
            && StrictlyAscending(r)
            && (forall l :: l in r <==> l in GroupByLevel(words))
            && (forall l :: l in r <==> exists i :: 0 <= i < |words| && words[i].level == l)
            && (|r| == 0 <==> |words| == 0)
  {
    var ls := LevelsOf(words);
    var r := Sort(Dedup(ls));
    SortDedupFacts(ls);
    forall l ensures l in r <==> l in GroupByLevel(words) {
      HasGroupIff(words, l);
      GroupByLevelFacts(words, l);
    }
    forall l ensures l in r <==> exists i :: 0 <= i < |words| && words[i].level == l {
      if l in ls {
        var i :| 0 <= i < |ls| && ls[i] == l;
        assert words[i].level == l;
      }
    }
    if |words| > 0 {
      assert ls[0] in r;
    }
  }

  // ----- counts -----

  datatype LevelInfo = LevelInfo(newWords: nat, totalWords: nat)

  /** A weaker test passes at least as many words. */
  lemma {:induction false} CountWeaker(words: seq<Word>, t: WordTest, u: WordTest)
    requires forall w :: Holds(t, w) ==> Holds(u, w)
    ensures CountWords(words, t) <= CountWords(words, u)
  {
    if |words| > 0 {
      CountWeaker(words[1..], t, u);
    }
  }

  /** `getLevelInfo(level)`: the words of exactly this level and of this level or below. */
  function GetLevelInfo(words: seq<Word>, level: int): (r: LevelInfo)
    ensures r.newWords <= r.totalWords
    ensures r.newWords == CountWords(words, LevelIs(level))
    ensures r.totalWords == CountWords(words, LevelAtMost(level))
  {
    CountWeaker(words, LevelIs(level), LevelAtMost(level));
    LevelInfo(CountWords(words, LevelIs(level)), CountWords(words, LevelAtMost(level)))
  }

  /** The cumulative total never decreases as the level rises. */
  lemma TotalWordsMonotone(words: seq<Word>, a: int, b: int)
    requires a <= b
    ensures GetLevelInfo(words, a).totalWords <= GetLevelInfo(words, b).totalWords
  {
    CountWeaker(words, LevelAtMost(a), LevelAtMost(b));
  }

  // ----- unlocking -----

  /** The loop `for (i = from; i < level; i++) if (count(i) < 10) return false`. */
  function LowerLevelsFull(words: seq<Word>, from: int, level: int): bool
    decreases level - from
  {
    if from >= level then true
    else CountWords(words, LevelIs(from)) >= UnlockThreshold && LowerLevelsFull(words, from + 1, level)
  }

  /** `isLevelUnlocked(level)`. */
  function IsLevelUnlocked(words: seq<Word>, level: int): bool {
    if level == 1 then true else LowerLevelsFull(words, 1, level)
  }

  lemma {:induction false} LowerLevelsFullIff(words: seq<Word>, from: int, level: int)
    ensures LowerLevelsFull(words, from, level)
            <==> forall i :: from <= i < level ==> CountWords(words, LevelIs(i)) >= UnlockThreshold
    decreases level - from
  {
    if from < level {
      LowerLevelsFullIff(words, from + 1, level);
    }
  }

  /**
   * Level 1 is always open, whatever the words; any other level is open
   * exactly when each level from 1 below it has at least ten words of its
   * own. (A level below 1 has no lower levels to check, so it is open too.)
   */
  lemma UnlockedIff(words: seq<Word>, level: int)
    ensures IsLevelUnlocked(words, 1)
    ensures IsLevelUnlocked(words, level)
            <==> level == 1 || forall i :: 1 <= i < level ==> CountWords(words, LevelIs(i)) >= UnlockThreshold
  {
    LowerLevelsFullIff(words, 1, level);
  }

  /** Nine words at a level keep the next one locked; ten open it. */
  lemma ThresholdIsTen(words: seq<Word>, level: int)
    requires level >= 1
    requires IsLevelUnlocked(words, level)
    ensures CountWords(words, LevelIs(level)) == UnlockThreshold - 1 ==> !IsLevelUnlocked(words, level + 1)
    ensures CountWords(words, LevelIs(level)) == UnlockThreshold ==> IsLevelUnlocked(words, level + 1)
  {
    UnlockedIff(words, level);
    UnlockedIff(words, level + 1);
  }

  /** Unlocking is closed downwards from any open level to level 1. */
  lemma UnlockedDownwardClosed(words: seq<Word>, level: int, lower: int)
    requires 1 <= lower <= level
    requires IsLevelUnlocked(words, level)
    ensures IsLevelUnlocked(words, lower)
  {
    UnlockedIff(words, level);
    UnlockedIff(words, lower);
  }

  /** `isLevelCompleted(level)`: false with no current user. */
  function IsLevelCompleted(currentUser: Option<User>, level: int): (r: bool)
    ensures currentUser.None? ==> !r
    ensures currentUser.Some? ==> (r <==> level in currentUser.value.progress.completedLevels)
  {
    currentUser.Some? && level in currentUser.value.progress.completedLevels
  }

  /** The `reduce` of `maxUnlockedLevel`, from the accumulator `acc`. */
  function MaxUnlockedFrom(words: seq<Word>, levels: seq<int>, acc: int): (r: int)
    ensures r >= acc
    ensures r == acc || (r in levels && IsLevelUnlocked(words, r))
    ensures forall i :: 0 <= i < |levels| && IsLevelUnlocked(words, levels[i]) ==> levels[i] <= r
  {
    if |levels| == 0 then acc
    else
      var l := levels[0];
      var next := if IsLevelUnlocked(words, l) && l > acc then l else acc;
      var r := MaxUnlockedFrom(words, levels[1..], next);
      assert forall i :: 1 <= i < |levels| ==> levels[i] == levels[1..][i - 1];
      r
  }

  /** `maxUnlockedLevel`: the highest open available level, and 1 when none exceeds it. */
  function MaxUnlockedLevel(words: seq<Word>): (r: int)
    ensures r >= 1
    ensures r == 1 || (r in AvailableLevels(words) && IsLevelUnlocked(words, r))
    ensures forall l :: l in AvailableLevels(words) && IsLevelUnlocked(words, l) ==> l <= r
  {
    MaxUnlockedFrom(words, AvailableLevels(words), 1)
  }

  /** `handleLevelClick(level)`: the level passed to `onLevelSelect`, if any. */
  function HandleLevelClick(words: seq<Word>, level: int): (r: Option<int>)
    ensures r.Some? <==> IsLevelUnlocked(words, level)
    ensures r.Some? ==> r.value == level
  {
    if IsLevelUnlocked(words, level) then Some(level) else None
  }

  /** A click on an available level selects it only when every lower level is full. */
  lemma ClickSelectsOnlyUnlocked(words: seq<Word>, level: int)
    requires level > 1
    ensures HandleLevelClick(words, level) == Some(level)
            <==> forall i :: 1 <= i < level ==> CountWords(words, LevelIs(i)) >= UnlockThreshold
  {
    UnlockedIff(words, level);
  }
}

=== FILE: merge.dfy ===
/**
 * `mergeUsers` and `mergeWords`: id-keyed merges of an imported list into
 * the stored one, through a JavaScript `Map` (see JsMap).
 */
module Merge {
  import opened Optional
  import opened Seqs
  import opened IntLists
  import opened Domain
  import opened JsMap

  function UserIds(us: seq<User>): (r: seq<string>)
    ensures |r| == |us|
    ensures forall i :: 0 <= i < |us| ==> r[i] == us[i].id
  {
    seq(|us|, i requires 0 <= i < |us| => us[i].id)
  }

  function WordIds(ws: seq<Word>): (r: seq<string>)
    ensures |r| == |ws|
    ensures forall i :: 0 <= i < |ws| ==> r[i] == ws[i].id
  {
    seq(|ws|, i requires 0 <= i < |ws| => ws[i].id)
  }

  /** `list.map(x => [x.id, x])`. */
  function UserPairs(us: seq<User>): (r: seq<(string, User)>)
    ensures Keys(r) == UserIds(us)
    ensures |r| == |us| && forall i :: 0 <= i < |us| ==> r[i] == (us[i].id, us[i])
  {
    seq(|us|, i requires 0 <= i < |us| => (us[i].id, us[i]))
  }

  function WordPairs(ws: seq<Word>): (r: seq<(string, Word)>)
    ensures Keys(r) == WordIds(ws)
    ensures |r| == |ws| && forall i :: 0 <= i < |ws| ==> r[i] == (ws[i].id, ws[i])
  {
    seq(|ws|, i requires 0 <= i < |ws| => (ws[i].id, ws[i]))
  }

  /** Every entry is stored under its own id. */
  ghost predicate KeyedById(m: Entries<User>) {
    forall i :: 0 <= i < |m| ==> m[i].1.id == m[i].0
  }

  ghost predicate WordsKeyedById(m: Entries<Word>) {
    forall i :: 0 <= i < |m| ==> m[i].1.id == m[i].0
  }

  /** How an existing user absorbs an imported user with the same id. */
  function MergeUser(existing: User, imported: User): (r: User)
    ensures r.id == existing.id
    ensures r.username == imported.username
    // completed levels: the ascending, duplicate-free union
    ensures StrictlyAscending(r.progress.completedLevels)
    ensures forall x :: (x in r.progress.completedLevels) <==>
                          (x in existing.progress.completedLevels || x in imported.progress.completedLevels)
    // current level: the larger of the two
    ensures r.progress.currentLevel >= existing.progress.currentLevel
    ensures r.progress.currentLevel >= imported.progress.currentLevel
    ensures r.progress.currentLevel == existing.progress.currentLevel
            || r.progress.currentLevel == imported.progress.currentLevel
    // quiz results: every level of either, imported entries winning
    ensures r.quizResults.Keys == existing.quizResults.Keys + imported.quizResults.Keys
    ensures forall k :: k in imported.quizResults ==> r.quizResults[k] == imported.quizResults[k]
    ensures forall k :: k in existing.quizResults && k !in imported.quizResults ==>
                          r.quizResults[k] == existing.quizResults[k]
  {
    var a := existing.progress;
    var b := imported.progress;
    existing.(username := imported.username,
              progress := Progress(AscendingUnion(a.completedLevels, b.completedLevels),
                                   if a.currentLevel >= b.currentLevel then a.currentLevel else b.currentLevel),
              quizResults := existing.quizResults + imported.quizResults)
  }

  /** The user stored for an imported user: merged with the current entry, if any. */
  function Combine(current: Option<User>, imported: User): User {
    match current
    case Some(e) => MergeUser(e, imported)
    case None => imported
  }

  /** One step of `importedUsers.forEach`. */
  function Absorb(m: Entries<User>, u: User): Entries<User> {
    Set(m, u.id, Combine(Get(m, u.id), u))
  }

  function AbsorbAll(m: Entries<User>, imported: seq<User>): Entries<User> {
    if |imported| == 0 then m
    else Absorb(AbsorbAll(m, imported[..|imported| - 1]), imported[|imported| - 1])
  }

  /** `mergeUsers(existing, imported)`. */
  function MergeUsers(existing: seq<User>, imported: seq<User>): (r: seq<User>)
    // stored ids first, in their order, then new imported ids in import order
    ensures UserIds(r) == Dedup(UserIds(existing) + UserIds(imported))
    ensures NoDups(UserIds(r))
  {
    var m0 := FromEntries(UserPairs(existing));
    var m := AbsorbAll(m0, imported);
    AbsorbAllKeys(m0, imported, UserIds(existing));
    FromEntriesKeyed(existing);
    AbsorbAllKeyed(m0, imported);
    Values(m)
  }

  lemma FromEntriesKeyed(us: seq<User>)
    ensures KeyedById(FromEntries(UserPairs(us)))
  {
    var m := FromEntries(UserPairs(us));
    forall i | 0 <= i < |m| ensures m[i].1.id == m[i].0 {
      var k := m[i].0;
      assert k in Keys(m);
      GetDistinct(m, i);
      LastPairIsOwn(us, k);
    }
  }

  /** In a map with distinct keys, looking up the key of entry i finds entry i. */
  lemma {:induction false} GetDistinct<V>(m: Entries<V>, i: nat)
    requires i < |m|
    requires NoDups(Keys(m))
    ensures Get(m, m[i].0) == Some(m[i].1)
  {
    if i > 0 {
      assert Keys(m)[0] != Keys(m)[i];
      assert Keys(m[1..]) == Keys(m)[1..];
      GetDistinct(m[1..], i - 1);
    }
  }

  lemma {:induction false} LastPairIsOwn(us: seq<User>, k: string)
    ensures LastValue(UserPairs(us), k).Some? ==> LastValue(UserPairs(us), k).value.id == k
  {
    if |us| > 0 {
      var n := |us| - 1;
      assert UserPairs(us)[..n] == UserPairs(us[..n]);
      LastPairIsOwn(us[..n], k);
    }
  }

  lemma {:induction false} AbsorbAllKeyed(m: Entries<User>, imported: seq<User>)
    requires KeyedById(m)
    requires NoDups(Keys(m))
    ensures KeyedById(AbsorbAll(m, imported))
    ensures NoDups(Keys(AbsorbAll(m, imported)))
  {
    if |imported| > 0 {
      var n := |imported| - 1;
      AbsorbAllKeyed(m, imported[..n]);
      SetKeyed(AbsorbAll(m, imported[..n]), imported[n]);
    }
  }

  lemma SetKeyed(m: Entries<User>, u: User)
    requires KeyedById(m)
    requires NoDups(Keys(m))
    ensures KeyedById(Absorb(m, u))
    ensures NoDups(Keys(Absorb(m, u)))
  {
    var v := Combine(Get(m, u.id), u);
    GetKeyed(m, u.id);
    SetKeepsKeyed(m, u.id, v);
    SetKeys(m, u.id, v);
    if u.id !in Keys(m) {
      FreshKeepsNoDups(Keys(m), u.id);
    }
  }

  lemma UserIdsSnoc(a: seq<string>, us: seq<User>)
    requires |us| > 0
    ensures a + UserIds(us) == (a + UserIds(us[..|us| - 1])) + [us[|us| - 1].id]
  {
    assert UserIds(us) == UserIds(us[..|us| - 1]) + [us[|us| - 1].id];
  }

  lemma FreshKeepsNoDups(s: seq<string>, k: string)
    requires NoDups(s)
    requires k !in s
    ensures NoDups(s + [k])
  {
  }

  lemma {:induction false} GetKeyed(m: Entries<User>, k: string)
    requires KeyedById(m)
    ensures Get(m, k).Some? ==> Get(m, k).value.id == k
  {
    if |m| > 0 && m[0].0 != k {
      GetKeyed(m[1..], k);
    }
  }

  lemma {:induction false} SetKeepsKeyed(m: Entries<User>, k: string, v: User)
    requires KeyedById(m)
    requires v.id == k
    ensures KeyedById(Set(m, k, v))
  {
    if |m| > 0 && m[0].0 != k {
      SetKeepsKeyed(m[1..], k, v);
    }
  }

  lemma {:induction false} AbsorbAllKeys(m: Entries<User>, imported: seq<User>, a: seq<string>)
    requires Keys(m) == Dedup(a)
    ensures Keys(AbsorbAll(m, imported)) == Dedup(a + UserIds(imported))
  {
    if |imported| == 0 {
      assert a + UserIds(imported) == a;
    } else {
      var n := |imported| - 1;
      var u := imported[n];
      var prev := AbsorbAll(m, imported[..n]);
      AbsorbAllKeys(m, imported[..n], a);
      SetExtendsDedup(prev, a + UserIds(imported[..n]), u.id, Combine(Get(prev, u.id), u));
      UserIdsSnoc(a, imported);
    }
  }

  /** The values of a map keyed by id are found by id exactly where the map finds them. */
  lemma {:induction false} FindValues(m: Entries<User>, k: string)
    requires KeyedById(m)
    ensures FindUser(Values(m), k) == Get(m, k)
  {
    if |m| > 0 {
      assert Values(m)[1..] == Values(m[1..]);
      FindValues(m[1..], k);
    }
  }

  // ----- the value stored for each id -----

  /** `imported.filter(u => u.id === k)`. */
  function WithId(us: seq<User>, k: string): (r: seq<User>)
    ensures forall i :: 0 <= i < |r| ==> r[i].id == k && r[i] in us
  {
    if |us| == 0 then []
    else
      var front := WithId(us[..|us| - 1], k);
      if us[|us| - 1].id == k then front + [us[|us| - 1]] else front
  }

  /** Absorbing the users of one id, in order, starting from the stored entry. */
  function MergeChain(start: Option<User>, us: seq<User>): Option<User> {
    if |us| == 0 then start
    else Some(Combine(MergeChain(start, us[..|us| - 1]), us[|us| - 1]))
  }

  lemma {:induction false} AbsorbAllGet(m: Entries<User>, imported: seq<User>, k: string)
    ensures Get(AbsorbAll(m, imported), k) == MergeChain(Get(m, k), WithId(imported, k))
  {
    if |imported| > 0 {
      var n := |imported| - 1;
      var u := imported[n];
      AbsorbAllGet(m, imported[..n], k);
      GetAfterSet(AbsorbAll(m, imported[..n]), u.id, Combine(Get(AbsorbAll(m, imported[..n]), u.id), u), k);
      if u.id == k {
        var w := WithId(imported, k);
        assert w[..|w| - 1] == WithId(imported[..n], k);
      }
    }
  }

  /**
   * The merged user with id k is the stored user with that id (the last one in
   * the stored list) absorbing, in import order, every imported user with that id.
   */
  lemma MergedEntry(existing: seq<User>, imported: seq<User>, k: string)
    ensures FindUser(MergeUsers(existing, imported), k)
            == MergeChain(LastValue(UserPairs(existing), k), WithId(imported, k))
  {
    var m0 := FromEntries(UserPairs(existing));
    FromEntriesKeyed(existing);
    AbsorbAllKeyed(m0, imported);
    FindValues(AbsorbAll(m0, imported), k);
    AbsorbAllGet(m0, imported, k);
  }

  lemma {:induction false} WithIdSingle(us: seq<User>, u: User)
    requires NoDups(UserIds(us))
    requires u in us
    ensures WithId(us, u.id) == [u]
  {
    var n := |us| - 1;
    if us[n] == u {
      WithIdNone(us[..n], u.id);
    } else {
      assert UserIds(us[..n]) == UserIds(us)[..n];
      WithIdSingle(us[..n], u);
      var i :| 0 <= i < n && us[i] == u;
      assert UserIds(us)[i] != UserIds(us)[n];
    }
  }

  lemma {:induction false} WithIdNone(us: seq<User>, k: string)
    requires forall i :: 0 <= i < |us| ==> us[i].id != k
    ensures WithId(us, k) == []
  {
    if |us| > 0 {
      WithIdNone(us[..|us| - 1], k);
    }
  }

  lemma {:induction false} LastValueOfMember(us: seq<User>, e: User)
    requires NoDups(UserIds(us))
    requires e in us
    ensures LastValue(UserPairs(us), e.id) == Some(e)
  {
    var n := |us| - 1;
    assert UserPairs(us)[..n] == UserPairs(us[..n]);
    if us[n] != e {
      assert UserIds(us[..n]) == UserIds(us)[..n];
      var i :| 0 <= i < n && us[i] == e;
      assert UserIds(us)[i] != UserIds(us)[n];
      LastValueOfMember(us[..n], e);
    }
  }

  lemma {:induction false} LastValueAbsent(us: seq<User>, k: string)
    requires forall i :: 0 <= i < |us| ==> us[i].id != k
    ensures LastValue(UserPairs(us), k) == None
  {
    if |us| > 0 {
      var n := |us| - 1;
      assert UserPairs(us)[..n] == UserPairs(us[..n]);
      LastValueAbsent(us[..n], k);
    }
  }

  /** With duplicate-free ids on both sides, a colliding id holds the merge of the two users. */
  lemma MergeCollision(existing: seq<User>, imported: seq<User>, e: User, u: User)
    requires NoDups(UserIds(existing)) && NoDups(UserIds(imported))
    requires e in existing && u in imported && e.id == u.id
    ensures FindUser(MergeUsers(existing, imported), u.id) == Some(MergeUser(e, u))
  {
    MergedEntry(existing, imported, u.id);
    WithIdSingle(imported, u);
    LastValueOfMember(existing, e);
    assert [u][..0] == [];
  }

  /** A new imported id holds the imported user unchanged. */
  lemma MergeNewUser(existing: seq<User>, imported: seq<User>, u: User)
    requires NoDups(UserIds(imported))
    requires u in imported && u.id !in UserIds(existing)
    ensures FindUser(MergeUsers(existing, imported), u.id) == Some(u)
  {
    MergedEntry(existing, imported, u.id);
    WithIdSingle(imported, u);
    LastValueAbsent(existing, u.id);
    assert [u][..0] == [];
  }

  /** A stored id that is not imported keeps its user. */
  lemma MergeUntouchedUser(existing: seq<User>, imported: seq<User>, e: User)
    requires NoDups(UserIds(existing))
    requires e in existing && e.id !in UserIds(imported)
    ensures FindUser(MergeUsers(existing, imported), e.id) == Some(e)
  {
    MergedEntry(existing, imported, e.id);
    WithIdNone(imported, e.id);
    LastValueOfMember(existing, e);
  }

  // ----- words -----

  /** `mergeWords(existing, imported)`: imported words overwrite stored ones with the same id. */
  function MergeWords(existing: seq<Word>, imported: seq<Word>): (r: seq<Word>)
    ensures WordIds(r) == Dedup(WordIds(existing) + WordIds(imported))
    ensures NoDups(WordIds(r))
    // the word kept for an id is the last one with that id, imported words coming last
    ensures forall k :: FindWord(r, k) == LastValue(WordPairs(existing + imported), k)
  {
    MergeWordsFacts(existing, imported);
    Values(SetAll(FromEntries(WordPairs(existing)), WordPairs(imported)))
  }

  lemma MergeWordsFacts(existing: seq<Word>, imported: seq<Word>)
    ensures var m := SetAll(FromEntries(WordPairs(existing)), WordPairs(imported));
            && WordIds(Values(m)) == Dedup(WordIds(existing) + WordIds(imported))
            && forall k :: FindWord(Values(m), k) == LastValue(WordPairs(existing + imported), k)
  {
    var all := WordPairs(existing + imported);
    assert all == WordPairs(existing) + WordPairs(imported);
    var empty: Entries<Word> := [];
    SetAllAppend(empty, WordPairs(existing), WordPairs(imported));
    var m := FromEntries(all);
    WordsKeyed(existing + imported);
    assert WordIds(Values(m)) == Keys(m);
    assert Keys(all) == WordIds(existing) + WordIds(imported);
    forall k ensures FindWord(Values(m), k) == LastValue(all, k) {
      FindWordValues(m, k);
    }
  }

  /** `words.find(w => w.id === k)`. */
  function FindWord(ws: seq<Word>, k: string): Option<Word> {
    if |ws| == 0 then None else if ws[0].id == k then Some(ws[0]) else FindWord(ws[1..], k)
  }

  lemma WordsKeyed(ws: seq<Word>)
    ensures WordsKeyedById(FromEntries(WordPairs(ws)))
  {
    var m := FromEntries(WordPairs(ws));
    forall i | 0 <= i < |m| ensures m[i].1.id == m[i].0 {
      GetDistinct(m, i);
      LastWordIsOwn(ws, m[i].0);
    }
  }

  lemma {:induction false} LastWordIsOwn(ws: seq<Word>, k: string)
    ensures LastValue(WordPairs(ws), k).Some? ==> LastValue(WordPairs(ws), k).value.id == k
  {
    if |ws| > 0 {
      var n := |ws| - 1;
      assert WordPairs(ws)[..n] == WordPairs(ws[..n]);
      LastWordIsOwn(ws[..n], k);
    }
  }

  lemma {:induction false} FindWordValues(m: Entries<Word>, k: string)
    requires WordsKeyedById(m)
    ensures FindWord(Values(m), k) == Get(m, k)
  {
    if |m| > 0 {
      assert Values(m)[1..] == Values(m[1..]);
      FindWordValues(m[1..], k);
    }
  }

  /** An imported word wins over a stored one; a stored word not imported stays. */
  lemma LastWordSplit(existing: seq<Word>, imported: seq<Word>, k: string)
    ensures LastValue(WordPairs(existing + imported), k)
            == if k in WordIds(imported) then LastValue(WordPairs(imported), k)
               else LastValue(WordPairs(existing), k)
  {
    assert WordPairs(existing + imported) == WordPairs(existing) + WordPairs(imported);
    LastValueAppend(WordPairs(existing), WordPairs(imported), k);
  }

}

=== FILE: optional.dfy ===
/** The nullable value of the source (`T | null`, an absent map entry). */
module Optional {

  datatype Option<+T> = None | Some(value: T) {

    /** The value when present, otherwise `default`. */
    function GetOr(default: T): T {
      match this
      case Some(v) => v
      case None => default
    }
  }
}

=== FILE: panel.dfy ===
/** The export/import panel: its import options and the import button. */
module Panel {
  import opened Optional
  import opened Json
  import opened Importer

  /** The options the panel starts with: merge both lists, do not replace. */
  const InitialOptions := ImportOptions(true, true, false)

  datatype OptionName = MergeUsersOption | MergeWordsOption | ReplaceAllOption

  /** Replacing everything and merging are never selected together. */
  predicate Exclusive(o: ImportOptions) {
    o.replaceAll ==> !o.mergeUsers && !o.mergeWords
  }

  /**
   * `handleOptionChange(option, value)`: turning replace-all on clears both
   * merge flags, turning it off sets both; changing a merge flag sets that
   * flag, keeps the other and clears replace-all.
   */
  function HandleOptionChange(o: ImportOptions, option: OptionName, value: bool): (r: ImportOptions)
    ensures Exclusive(r)
    ensures r.replaceAll <==> option == ReplaceAllOption && value
    ensures option == ReplaceAllOption ==> r.mergeUsers == !value && r.mergeWords == !value
    ensures option == MergeUsersOption ==> r.mergeUsers == value && r.mergeWords == o.mergeWords
    ensures option == MergeWordsOption ==> r.mergeWords == value && r.mergeUsers == o.mergeUsers
  {
    match option
    case ReplaceAllOption =>
      if value then ImportOptions(false, false, true) else ImportOptions(true, true, false)
    case MergeUsersOption => o.(mergeUsers := value, replaceAll := false)
    case MergeWordsOption => o.(mergeWords := value, replaceAll := false)
  }

  /** The options after a series of changes, applied in order. */
  function ApplyChanges(o: ImportOptions, changes: seq<(OptionName, bool)>): ImportOptions
    decreases |changes|
  {
    if |changes| == 0 then o
    else ApplyChanges(HandleOptionChange(o, changes[0].0, changes[0].1), changes[1..])
  }

  /**
   * From the initial options, whatever the user clicks, replace-all and the
   * merge flags are never on together; and the last replace-all click
   * decides the mode unless a merge flag was changed after it.
   */
  lemma {:induction false} ChangesKeepExclusive(o: ImportOptions, changes: seq<(OptionName, bool)>)
    requires Exclusive(o)
    ensures Exclusive(ApplyChanges(o, changes))
    ensures |changes| > 0 ==>
              (ApplyChanges(o, changes).replaceAll <==> changes[|changes| - 1] == (ReplaceAllOption, true))
    decreases |changes|
  {
    if |changes| > 0 {
      var next := HandleOptionChange(o, changes[0].0, changes[0].1);
      ChangesKeepExclusive(next, changes[1..]);
      if |changes| > 1 {
        assert changes[1..][|changes[1..]| - 1] == changes[|changes| - 1];
      }
    }
  }

  lemma InitialExclusive()
    ensures Exclusive(InitialOptions) && !InitialOptions.replaceAll
  {
  }

  /** What the panel holds: the parsed file, the chosen options, the last result; and the store. */
  datatype PanelState = PanelState(preview: Option<Json>, options: ImportOptions,
                                   lastResult: Option<ImportResult>, store: Store)

  /**
   * `handleImport()`: nothing without a parsed file or when the parsed value
   * is falsy (`null`, `false`, `0`, `""`); otherwise the import runs with the
   * chosen options and its result is shown.
   */
  function HandleImport(p: PanelState): (r: PanelState)
    ensures p.preview.None? ==> r == p
    ensures p.preview.Some? && !Truthy(p.preview.value) ==> r == p
    ensures p.preview.Some? && Truthy(p.preview.value) ==>
              var outcome := ImportData(p.store, p.preview.value, p.options);
              && r.lastResult == Some(outcome.result)
              && r.store == outcome.store
              && r.preview == p.preview && r.options == p.options
    ensures r.lastResult.Some? && !r.lastResult.value.success ==> r.store == p.store
  {
    match p.preview
    case None => p
    case Some(data) =>
      if !Truthy(data) then p
      else
        var outcome := ImportData(p.store, data, p.options);
        p.(lastResult := Some(outcome.result), store := outcome.store)
  }

  /**
   * Importing a file exported from a valid store, with replace-all chosen,
   * shows a success and leaves the panel holding the exported data (empty
   * lists and a missing current user are not written).
   */
  lemma ImportOfExportRestores(s: Store, target: Store, exportDate: string)
    requires ValidStore(s)
    ensures var p := PanelState(Some(EncodeExport(ExportAllData(s), exportDate)),
                                ImportOptions(false, false, true), None, target);
            var r := HandleImport(p);
            && r.lastResult.Some? && r.lastResult.value.success
            && r.store.users == (if |s.users| > 0 then s.users else target.users)
            && r.store.words == (if |s.words| > 0 then s.words else target.words)
            && r.store.currentUser == (if s.currentUser.Some? then s.currentUser else target.currentUser)
  {
    ExportImportRoundTrip(s, target, exportDate);
  }
}

=== FILE: profiles.dfy ===
/** `handleCreateUser` of the user profile manager. */
module Profiles {
  import opened Optional
  import opened Text
  import opened Domain
  import opened Reducer

  datatype CreateError = EmptyUsername | UsernameTooShort | UsernameTaken

  function ErrorText(e: CreateError): string {
    match e
    case EmptyUsername => "Username cannot be empty"
    case UsernameTooShort => "Username must be at least 2 characters long"
    case UsernameTaken => "Username already exists"
  }

  /** A new name must be at least this long, in UTF-16 code units. */
  const MinUsernameLength := 2

  datatype CreateOutcome = Rejected(error: CreateError) | Created(user: User, state: AppState)

  /** Some profile already has this name, ignoring case. */
  predicate NameTaken(users: seq<User>, name: string) {
    exists i :: 0 <= i < |users| && AsciiLower(users[i].username) == AsciiLower(name)
  }

  /** No two profiles share a name, ignoring case. */
  ghost predicate NamesDistinct(users: seq<User>) {
    forall i, j :: 0 <= i < j < |users| ==> AsciiLower(users[i].username) != AsciiLower(users[j].username)
  }

  /**
   * `handleCreateUser` with the input `newUsername` and the id the
   * generator would return. The checks run in order; on success the new
   * profile is added and made current by two dispatches.
   */
  function CreateUser(state: AppState, newUsername: string, id: string): (r: CreateOutcome)
    ensures r == Rejected(EmptyUsername) <==> AllSpace(newUsername)
    ensures r == Rejected(UsernameTooShort) <==>
              !AllSpace(newUsername) && Utf16Length(Trim(newUsername)) < MinUsernameLength
    ensures r == Rejected(UsernameTaken) <==>
              && Utf16Length(Trim(newUsername)) >= MinUsernameLength
              && NameTaken(state.users, Trim(newUsername))
    ensures r.Created? <==>
              Utf16Length(Trim(newUsername)) >= MinUsernameLength && !NameTaken(state.users, Trim(newUsername))
    ensures r.Created? ==>
              && r.user == User(id, Trim(newUsername), FreshProgress, map[])
              && r.state == state.(users := state.users + [r.user], currentUser := Some(r.user))
  {
    TrimEmptyIffAllSpace(newUsername);
    var name := Trim(newUsername);
    if |name| == 0 then Rejected(EmptyUsername)
    else if Utf16Length(name) < MinUsernameLength then Rejected(UsernameTooShort)
    else if NameTaken(state.users, name) then Rejected(UsernameTaken)
    else
      var u := User(id, name, FreshProgress, map[]);
      Created(u, Reduce(Reduce(state, AddUser(u)), SetCurrentUser(Some(u))))
  }

  /** A new name never clashes with an existing one, so names stay distinct ignoring case. */
  lemma CreateKeepsNamesDistinct(state: AppState, newUsername: string, id: string)
    requires NamesDistinct(state.users)
    ensures var r := CreateUser(state, newUsername, id);
            r.Created? ==> NamesDistinct(r.state.users)
  {
    var r := CreateUser(state, newUsername, id);
    if r.Created? {
      var users := r.state.users;
      forall i, j | 0 <= i < j < |users|
        ensures AsciiLower(users[i].username) != AsciiLower(users[j].username)
      {
        if j == |users| - 1 {
          assert users[i] == state.users[i];
        } else {
          assert users[i] == state.users[i] && users[j] == state.users[j];
        }
      }
    }
  }

  lemma {:induction false} FindAppendedFresh(users: seq<User>, u: User)
    requires FindUser(users, u.id).None?
    ensures FindUser(users + [u], u.id) == Some(u)
  {
    if |users| > 0 {
      assert (users + [u])[1..] == users[1..] + [u];
      FindAppendedFresh(users[1..], u);
    }
  }

  /** With an id no profile has yet, the new current user is its own list entry. */
  lemma CreateKeepsMirror(state: AppState, newUsername: string, id: string)
    requires FindUser(state.users, id).None?
    ensures var r := CreateUser(state, newUsername, id);
            r.Created? ==> Mirrors(r.state)
  {
    var r := CreateUser(state, newUsername, id);
    if r.Created? {
      FindAppendedFresh(state.users, r.user);
    }
  }
}

=== FILE: quiz.dfy ===
/**
 * The quiz: question generation over the cumulative word set, the
 * multiple-choice options, the answer loop and the score.
 */
module Quiz {
  import opened Domain
  import opened Shuffling
  import opened Arith

  /** At most this many questions per quiz. */
  const QuestionLimit := 10
  /** At most this many wrong options per question. */
  const DistractorLimit := 3
  /** The pass mark, in percent. */
  const PassMark := 70

  function Min(a: int, b: int): int {
    if a <= b then a else b
  }

  datatype Question = Question(word: Word, options: seq<string>, correctAnswer: string)

  /**
   * The random draws of one generation: the order of the candidate words,
   * and for question i the order of its distractor pool and of its options.
   */
  datatype QuizDraws = QuizDraws(order: seq<nat>, distractors: seq<seq<nat>>, options: seq<seq<nat>>)

  function DrawsAt(ds: seq<seq<nat>>, i: nat): seq<nat> {
    if i < |ds| then ds[i] else []
  }

  function Englishes(ws: seq<Word>): (r: seq<string>)
    ensures |r| == |ws|
    ensures forall i :: 0 <= i < |ws| ==> r[i] == ws[i].english
  {
    seq(|ws|, i requires 0 <= i < |ws| => ws[i].english)
  }

  function QuestionWords(qs: seq<Question>): (r: seq<Word>)
    ensures |r| == |qs|
    ensures forall i :: 0 <= i < |qs| ==> r[i] == qs[i].word
  {
    seq(|qs|, i requires 0 <= i < |qs| => qs[i].word)
  }

  /** A prefix takes no element more often than the whole list has it. */
  lemma PrefixSubMultiset<T>(s: seq<T>, k: nat)
    requires k <= |s|
    ensures multiset(s[..k]) <= multiset(s)
  {
    assert s == s[..k] + s[k..];
  }

  /**
   * The wrong options for `word`: up to three words of the whole inventory
   * (not only the quiz's levels), each with another id and another english text.
   */
  function Distractors(words: seq<Word>, word: Word, draws: seq<nat>): (r: seq<Word>)
    ensures |r| == Min(DistractorLimit, CountWords(words, OtherThan(word)))
    ensures multiset(r) <= multiset(FilterWords(words, OtherThan(word)))
    ensures forall i :: 0 <= i < |r| ==> r[i] in words && r[i].id != word.id && r[i].english != word.english
  {
    var others := FilterWords(words, OtherThan(word));
    var shuffled := Shuffle(others, draws);
    var k := Min(DistractorLimit, |shuffled|);
    PrefixSubMultiset(shuffled, k);
    assert forall i :: 0 <= i < k ==> shuffled[..k][i] in multiset(others);
    shuffled[..k]
  }

  /** One question: the word's english text shuffled in among the distractors' texts. */
  function MakeQuestion(words: seq<Word>, word: Word, distractorDraws: seq<nat>, optionDraws: seq<nat>): (q: Question)
    ensures q.word == word && q.correctAnswer == word.english
    ensures multiset(q.options) == multiset([word.english] + Englishes(Distractors(words, word, distractorDraws)))
    ensures |q.options| == 1 + Min(DistractorLimit, CountWords(words, OtherThan(word)))
    ensures multiset(q.options)[q.correctAnswer] == 1
  {
    var wrong := Englishes(Distractors(words, word, distractorDraws));
    assert word.english !in multiset(wrong);
    Question(word, Shuffle([word.english] + wrong, optionDraws), word.english)
  }

  /** The shuffled candidates cut to at most ten: the words the quiz asks about. */
  function QuizWords(candidates: seq<Word>, order: seq<nat>): (r: seq<Word>)
    ensures |r| == Min(QuestionLimit, |candidates|)
    ensures multiset(r) <= multiset(candidates)
    ensures forall i :: 0 <= i < |r| ==> r[i] in candidates
    ensures |candidates| <= QuestionLimit ==> multiset(r) == multiset(candidates)
  {
    var shuffled := Shuffle(candidates, order);
    var k := Min(QuestionLimit, |shuffled|);
    PrefixSubMultiset(shuffled, k);
    assert forall i :: 0 <= i < k ==> shuffled[..k][i] in multiset(candidates);
    assert |candidates| <= QuestionLimit ==> shuffled[..k] == shuffled;
    shuffled[..k]
  }

  /** One question per quiz word, each with its own draws. */
  function AskAll(words: seq<Word>, quiz: seq<Word>, draws: QuizDraws): (r: seq<Question>)
    ensures QuestionWords(r) == quiz
    ensures forall i :: 0 <= i < |r| ==>
              && r[i].correctAnswer == r[i].word.english
              && multiset(r[i].options)[r[i].correctAnswer] == 1
              && |r[i].options| == 1 + Min(DistractorLimit, CountWords(words, OtherThan(r[i].word)))
  {
    seq(|quiz|, i requires 0 <= i < |quiz| =>
      MakeQuestion(words, quiz[i], DrawsAt(draws.distractors, i), DrawsAt(draws.options, i)))
  }

  /**
   * `generateQuestions()`. With no word at or below the level it sets
   * nothing, so the previous questions stay.
   */
  function GenerateQuestions(previous: seq<Question>, words: seq<Word>, level: int, draws: QuizDraws): (r: seq<Question>)
    ensures CountWords(words, LevelAtMost(level)) == 0 ==> r == previous
    ensures CountWords(words, LevelAtMost(level)) > 0 ==>
              && |r| == Min(QuestionLimit, CountWords(words, LevelAtMost(level)))
              && multiset(QuestionWords(r)) <= multiset(FilterWords(words, LevelAtMost(level)))
  {
    var candidates := FilterWords(words, LevelAtMost(level));
    if |candidates| == 0 then previous
    else AskAll(words, QuizWords(candidates, draws.order), draws)
  }

  /**
   * Every generated question asks about a word at or below the level, has
   * that word's english text as its answer, and lists it exactly once
   * among one plus up to three options.
   */
  lemma GeneratedQuestion(previous: seq<Question>, words: seq<Word>, level: int, draws: QuizDraws, i: nat)
    requires CountWords(words, LevelAtMost(level)) > 0
    requires i < Min(QuestionLimit, CountWords(words, LevelAtMost(level)))
    ensures var q := GenerateQuestions(previous, words, level, draws)[i];
            && q.word in words && q.word.level <= level
            && q.correctAnswer == q.word.english
            && multiset(q.options)[q.correctAnswer] == 1
            && |q.options| == 1 + Min(DistractorLimit, CountWords(words, OtherThan(q.word)))
  {
    var candidates := FilterWords(words, LevelAtMost(level));
    var quiz := QuizWords(candidates, draws.order);
    var r := AskAll(words, quiz, draws);
    assert r[i].word == QuestionWords(r)[i] == quiz[i];
    assert quiz[i] in candidates;
  }

  /** A quiz over at most ten candidate words asks each of them exactly once. */
  lemma SmallLevelAsksEveryWord(previous: seq<Question>, words: seq<Word>, level: int, draws: QuizDraws)
    requires 0 < CountWords(words, LevelAtMost(level)) <= QuestionLimit
    ensures multiset(QuestionWords(GenerateQuestions(previous, words, level, draws)))
            == multiset(FilterWords(words, LevelAtMost(level)))
  {
  }

  /** Before any generation there are no questions, and an empty level leaves it so. */
  lemma EmptyLevelGivesNoQuestions(words: seq<Word>, level: int, draws: QuizDraws)
    ensures GenerateQuestions([], words, level, draws) == [] <==> CountWords(words, LevelAtMost(level)) == 0
  {
  }

  // ----- answering -----

  /** The number of answers equal to the correct answer of the question at the same index. */
  function CorrectCount(answers: seq<string>, questions: seq<Question>): (c: nat)
    requires |answers| <= |questions|
    ensures c <= |answers|
    ensures c == |answers| <==> forall i :: 0 <= i < |answers| ==> answers[i] == questions[i].correctAnswer
    ensures c == 0 <==> forall i :: 0 <= i < |answers| ==> answers[i] != questions[i].correctAnswer
  {
    if |answers| == 0 then 0
    else
      var k := |answers| - 1;
      CorrectCount(answers[..k], questions) + (if answers[k] == questions[k].correctAnswer then 1 else 0)
  }

  /** The indices below k whose answer is the question's correct answer. */
  ghost function Hits(answers: seq<string>, questions: seq<Question>, k: nat): set<nat>
    requires k <= |answers| <= |questions|
  {
    set i: nat | i < k && answers[i] == questions[i].correctAnswer
  }

  /** The count is the number of indices whose answer matches its question's correct answer. */
  lemma {:induction false} CorrectCountIsHits(answers: seq<string>, questions: seq<Question>)
    requires |answers| <= |questions|
    ensures CorrectCount(answers, questions) == |Hits(answers, questions, |answers|)|
  {
    if |answers| > 0 {
      var k := |answers| - 1;
      var prefix := answers[..k];
      CorrectCountIsHits(prefix, questions);
      assert Hits(prefix, questions, k) == Hits(answers, questions, k);
      if answers[k] == questions[k].correctAnswer {
        assert Hits(answers, questions, k + 1) == Hits(answers, questions, k) + {k};
      } else {
        assert Hits(answers, questions, k + 1) == Hits(answers, questions, k);
      }
    }
  }

  datatype QuizOutcome = QuizOutcome(score: int, passed: bool)

  /** Bounds, rounding and the pass threshold of `(200c + n) / (2n)`. */
  lemma RoundedPercent(c: int, n: int)
    requires 0 < n && 0 <= c <= n
    ensures var q := (200 * c + n) / (2 * n);
            && 0 <= q <= 100
            && -n < 2 * n * q - 200 * c <= n
            && (q >= PassMark <==> 200 * c >= 139 * n)
  {
    var a := 200 * c + n;
    var d := 2 * n;
    var q := a / d;
    assert d * q + a % d == a;
    MulCancel(d, -1, q);
    MulCancel(d, q, 101);
    if 200 * c >= 139 * n {
      MulCancel(d, PassMark - 1, q);
    } else {
      MulCancel(d, q, PassMark);
    }
  }

  /**
   * `showQuizResults`: `Math.round(correct / total * 100)`, in integers.
   * The score is the percentage rounded half up, and the quiz is passed at 70.
   */
  function Score(answers: seq<string>, questions: seq<Question>): (r: QuizOutcome)
    requires 0 < |questions| && |answers| <= |questions|
    ensures 0 <= r.score <= 100
    ensures var n: int := |questions|; var c := CorrectCount(answers, questions);
            -n < 2 * n * r.score - 200 * c <= n
    ensures r.passed <==> r.score >= PassMark
    ensures r.passed <==> 200 * CorrectCount(answers, questions) >= 139 * |questions|
  {
    var n := |questions|;
    var c := CorrectCount(answers, questions);
    RoundedPercent(c, n);
    var score := (200 * c + n) / (2 * n);
    QuizOutcome(score, score >= PassMark)
  }

  /** With ten questions, seven correct answers pass and six fail. */
  lemma TenQuestionsPassAtSeven(answers: seq<string>, questions: seq<Question>)
    requires |questions| == QuestionLimit && |answers| <= |questions|
    ensures Score(answers, questions).passed <==> CorrectCount(answers, questions) >= 7
  {
  }

  /** All answers right score 100; none right scores 0. */
  lemma ScoreExtremes(answers: seq<string>, questions: seq<Question>)
    requires 0 < |answers| == |questions|
    ensures (forall i :: 0 <= i < |answers| ==> answers[i] == questions[i].correctAnswer) ==>
              Score(answers, questions) == QuizOutcome(100, true)
    ensures (forall i :: 0 <= i < |answers| ==> answers[i] != questions[i].correctAnswer) ==>
              Score(answers, questions) == QuizOutcome(0, false)
  {
    var n := |questions|;
    DivUnique(200 * n + n, 2 * n, 100);
    DivUnique(n, 2 * n, 0);
  }

  /** The answer loop: the question shown, the answers given so far and the current selection. */
  datatype QuizRun = QuizRun(index: nat, answers: seq<string>, selected: string)

  datatype QuizStep = Next(run: QuizRun) | Done(answers: seq<string>, outcome: QuizOutcome)

  /** One answer recorded per question already passed. */
  predicate Answering(run: QuizRun, questions: seq<Question>) {
    run.index < |questions| && |run.answers| == run.index
  }

  /** The state `generateQuestions` leaves: the first question, no answers. */
  function StartRun(): QuizRun {
    QuizRun(0, [], "")
  }

  /** `handleNextQuestion()`: record the selection, then advance or finish. */
  function HandleNextQuestion(run: QuizRun, questions: seq<Question>): (r: QuizStep)
    requires Answering(run, questions)
    ensures r.Next? <==> run.index < |questions| - 1
    ensures r.Next? ==> Answering(r.run, questions)
                        && r.run.index == run.index + 1
                        && r.run.answers == run.answers + [run.selected]
                        && r.run.selected == ""
    ensures r.Done? ==> |r.answers| == |questions|
                        && r.answers == run.answers + [run.selected]
                        && r.outcome == Score(r.answers, questions)
  {
    var answers := run.answers + [run.selected];
    if run.index < |questions| - 1 then Next(QuizRun(run.index + 1, answers, ""))
    else Done(answers, Score(answers, questions))
  }
}

=== FILE: reducer.dfy ===
/**
 * The application state and its reducer: every user interaction is an action
 * that maps one immutable state snapshot to the next.
 */
module Reducer {
  import opened Optional
  import opened Domain
  import opened IntLists

  datatype AppState = AppState(currentUser: Option<User>, users: seq<User>, words: seq<Word>,
                               currentLevel: int, isLoading: bool)

  const InitialState: AppState := AppState(None, [], [], 1, false)

  /** The closed action type; `Unknown` stands for any other tag reaching the default branch. */
  datatype Action =
    | SetCurrentUser(user: Option<User>)
    | AddUser(newUser: User)
    | DeleteUser(userId: string)
    | UpdateUserProgress(userId: string, progress: Progress)
    | UpdateQuizResult(userId: string, level: int, score: int, passed: bool)
    | SetWords(words: seq<Word>)
    | AddWord(word: Word)
    | UpdateWord(word: Word)
    | DeleteWord(wordId: string)
    | SetCurrentLevel(level: int)
    | SetLoading(loading: bool)
    | ResetUserProgress(userId: string)
    | LoadData(users: seq<User>, words: seq<Word>)
    | Unknown(tag: string)
  {
    predicate IsWordAction() {
      SetWords? || AddWord? || UpdateWord? || DeleteWord?
    }

    predicate IsUserAction() {
      SetCurrentUser? || AddUser? || DeleteUser? || UpdateUserProgress?
      || UpdateQuizResult? || ResetUserProgress?
    }
  }

  /** Attempts recorded so far for a level, 0 when it was never taken. */
  function PriorAttempts(u: User, level: int): int {
    var key := LevelKey(level);
    if key in u.quizResults then u.quizResults[key].attempts else 0
  }

  /** The completed-level list after passing `level`. */
  function CompleteLevel(levels: seq<int>, level: int): (r: seq<int>)
    ensures level in r
    ensures forall x :: x in r <==> x in levels || x == level
  {
    if level in levels then levels
    else
      var r := Sort(levels + [level]);
      assert forall x :: x in r <==> x in multiset(levels + [level]);
      r
  }

  /** The per-user effect of UPDATE_QUIZ_RESULT. */
  function RecordQuiz(u: User, level: int, score: int, passed: bool): (r: User)
    ensures r.id == u.id && r.username == u.username
    // the entry for this level is overwritten and its attempts counted
    ensures r.quizResults == u.quizResults[LevelKey(level) := QuizResult(score, passed, PriorAttempts(u, level) + 1)]
    // on a pass the level is completed and the current level is at least the next one
    ensures passed ==> r.progress.completedLevels == CompleteLevel(u.progress.completedLevels, level)
    ensures passed ==> r.progress.currentLevel >= u.progress.currentLevel
                       && r.progress.currentLevel >= level + 1
                       && (r.progress.currentLevel == u.progress.currentLevel
                           || r.progress.currentLevel == level + 1)
    // on a fail progress is untouched
    ensures !passed ==> r.progress == u.progress
  {
    var result := QuizResult(score, passed, PriorAttempts(u, level) + 1);
    var progress :=
      if passed then
        Progress(CompleteLevel(u.progress.completedLevels, level),
                 if u.progress.currentLevel >= level + 1 then u.progress.currentLevel else level + 1)
      else u.progress;
    u.(quizResults := u.quizResults[LevelKey(level) := result], progress := progress)
  }

  /** Results for other levels are left as they were. */
  lemma RecordQuizOtherLevels(u: User, level: int, score: int, passed: bool, other: int)
    requires other != level
    ensures var r := RecordQuiz(u, level, score, passed);
            (LevelKey(other) in r.quizResults <==> LevelKey(other) in u.quizResults)
            && (LevelKey(other) in u.quizResults ==>
                  r.quizResults[LevelKey(other)] == u.quizResults[LevelKey(other)])
  {
    LevelKeyInjective(other, level);
  }

  /** The per-user changes that the reducer applies to every user with a given id. */
  datatype UserChange =
    | ReplaceProgress(progress: Progress)
    | Quiz(level: int, score: int, passed: bool)
    | Reset

  function ApplyChange(u: User, c: UserChange): (r: User)
    ensures r.id == u.id && r.username == u.username
  {
    match c
    case ReplaceProgress(p) => u.(progress := p)
    case Quiz(level, score, passed) => RecordQuiz(u, level, score, passed)
    case Reset => u.(progress := FreshProgress, quizResults := map[])
  }

  /** `users.map(u => u.id === id ? change(u) : u)`. */
  function ChangeUsers(users: seq<User>, id: string, c: UserChange): (r: seq<User>)
    ensures |r| == |users|
    ensures forall i :: 0 <= i < |users| ==>
              r[i] == if users[i].id == id then ApplyChange(users[i], c) else users[i]
  {
    seq(|users|, i requires 0 <= i < |users| =>
          if users[i].id == id then ApplyChange(users[i], c) else users[i])
  }

  /** Finding a user after a change finds the changed user. */
  lemma {:induction false} FindAfterChange(users: seq<User>, id: string, c: UserChange, k: string)
    ensures FindUser(ChangeUsers(users, id, c), k)
            == if k == id && FindUser(users, k).Some?
               then Some(ApplyChange(FindUser(users, k).value, c))
               else FindUser(users, k)
  {
    if |users| > 0 {
      var r := ChangeUsers(users, id, c);
      assert r[1..] == ChangeUsers(users[1..], id, c);
      FindAfterChange(users[1..], id, c, k);
    }
  }

  /** The new `currentUser` of UPDATE_QUIZ_RESULT: rebuilt from the matching `users` entry. */
  function QuizCurrentUser(state: AppState, userId: string, level: int, score: int, passed: bool): Option<User> {
    if state.currentUser.Some? && state.currentUser.value.id == userId then
      match FindUser(state.users, userId)
      case None => state.currentUser
      case Some(u) =>
        var updated := RecordQuiz(u, level, score, passed);
        Some(state.currentUser.value.(quizResults := updated.quizResults, progress := updated.progress))
    else state.currentUser
  }

  /** `currentUser` after a whole-progress change of the user `id`. */
  function MirrorChange(current: Option<User>, id: string, c: UserChange): Option<User> {
    if current.Some? && current.value.id == id then Some(ApplyChange(current.value, c)) else current
  }

  /** `words.map(w => w.id === word.id ? word : w)`. */
  function ReplaceWord(words: seq<Word>, word: Word): (r: seq<Word>)
    ensures |r| == |words|
    ensures forall i :: 0 <= i < |words| ==> r[i] == if words[i].id == word.id then word else words[i]
  {
    seq(|words|, i requires 0 <= i < |words| => if words[i].id == word.id then word else words[i])
  }

  /** The reducer. */
  function Reduce(state: AppState, action: Action): (r: AppState)
    // word actions leave the users alone, user actions leave the words alone
    ensures action.IsWordAction() ==> r.users == state.users && r.currentUser == state.currentUser
    ensures action.IsUserAction() ==> r.words == state.words
    // only SET_CURRENT_LEVEL and SET_LOADING touch these two fields
    ensures !action.SetCurrentLevel? ==> r.currentLevel == state.currentLevel
    ensures !action.SetLoading? ==> r.isLoading == state.isLoading
    ensures action.Unknown? ==> r == state
  {
    match action
    case SetCurrentUser(user) => state.(currentUser := user)
    case AddUser(u) => state.(users := state.users + [u])
    case DeleteUser(id) =>
      state.(users := WithoutUser(state.users, id),
             currentUser := if state.currentUser.Some? && state.currentUser.value.id == id
                            then None else state.currentUser)
    case UpdateUserProgress(id, p) =>
      state.(users := ChangeUsers(state.users, id, ReplaceProgress(p)),
             currentUser := MirrorChange(state.currentUser, id, ReplaceProgress(p)))
    case UpdateQuizResult(id, level, score, passed) =>
      state.(users := ChangeUsers(state.users, id, Quiz(level, score, passed)),
             currentUser := QuizCurrentUser(state, id, level, score, passed))
    case SetWords(ws) => state.(words := ws)
    case AddWord(w) => state.(words := state.words + [w])
    case UpdateWord(w) => state.(words := ReplaceWord(state.words, w))
    case DeleteWord(id) => state.(words := FilterWords(state.words, IdIsNot(id)))
    case SetCurrentLevel(level) => state.(currentLevel := level)
    case SetLoading(b) => state.(isLoading := b)
    case ResetUserProgress(id) =>
      state.(users := ChangeUsers(state.users, id, Reset),
             currentUser := MirrorChange(state.currentUser, id, Reset))
    case LoadData(us, ws) => state.(users := us, words := ws)
    case Unknown(_) => state
  }

  // ----- properties of single actions -----

  /** UPDATE_QUIZ_RESULT updates every user with the id, and nothing else in the list. */
  lemma QuizResultBookkeeping(state: AppState, id: string, level: int, score: int, passed: bool)
    ensures var r := Reduce(state, UpdateQuizResult(id, level, score, passed));
            && |r.users| == |state.users|
            && (forall i :: 0 <= i < |state.users| && state.users[i].id != id ==> r.users[i] == state.users[i])
            && (forall i :: 0 <= i < |state.users| && state.users[i].id == id ==>
                  var u := state.users[i];
                  && r.users[i].quizResults[LevelKey(level)]
                     == QuizResult(score, passed, PriorAttempts(u, level) + 1)
                  && (passed ==> level in r.users[i].progress.completedLevels)
                  && r.users[i].progress.currentLevel >= u.progress.currentLevel)
  {
  }

  /**
   * Passing keeps an ascending duplicate-free completed list so, records the level
   * exactly once, and raises the current level to max(old, level + 1).
   */
  lemma {:induction false} PassKeepsProgressOrdered(u: User, level: int, score: int)
    requires StrictlyAscending(u.progress.completedLevels)
    ensures var p := RecordQuiz(u, level, score, true).progress;
            && StrictlyAscending(p.completedLevels)
            && multiset(p.completedLevels)[level] == 1
            && (forall x :: x in p.completedLevels <==> x in u.progress.completedLevels || x == level)
            && p.currentLevel == if u.progress.currentLevel >= level + 1 then u.progress.currentLevel else level + 1
  {
    var cl := u.progress.completedLevels;
    if level !in cl {
      InsertFreshKeepsAscending(cl, level);
    } else {
      AscendingCountsOne(cl, level);
    }
  }

  /** Two passed attempts at the same level: two attempts, the level recorded once. */
  lemma TwoPassesCountTwice(u: User, level: int, s1: int, s2: int)
    requires StrictlyAscending(u.progress.completedLevels)
    requires LevelKey(level) !in u.quizResults
    ensures var once := RecordQuiz(u, level, s1, true);
            var twice := RecordQuiz(once, level, s2, true);
            && twice.quizResults[LevelKey(level)].attempts == 2
            && multiset(twice.progress.completedLevels)[level] == 1
  {
    var once := RecordQuiz(u, level, s1, true);
    PassKeepsProgressOrdered(u, level, s1);
    PassKeepsProgressOrdered(once, level, s2);
  }

  /** DELETE_USER drops every user with the id and clears a matching current user. */
  lemma DeleteUserEffect(state: AppState, id: string)
    ensures var r := Reduce(state, DeleteUser(id));
            && (forall u :: u in r.users <==> u in state.users && u.id != id)
            && (forall u: User :: u.id != id ==> multiset(r.users)[u] == multiset(state.users)[u])
            && (r.currentUser.None? <==> state.currentUser.None? || state.currentUser.value.id == id)
            && (r.currentUser.Some? ==> r.currentUser == state.currentUser)
  {
  }

  /** RESET_USER_PROGRESS gives the user fresh progress and no results; others keep theirs. */
  lemma ResetUserProgressEffect(state: AppState, id: string)
    ensures var r := Reduce(state, ResetUserProgress(id));
            && |r.users| == |state.users|
            && (forall i :: 0 <= i < |state.users| ==>
                  if state.users[i].id == id
                  then r.users[i] == state.users[i].(progress := Progress([], 1), quizResults := map[])
                  else r.users[i] == state.users[i])
            && (state.currentUser.Some? && state.currentUser.value.id == id ==>
                  r.currentUser == Some(state.currentUser.value.(progress := Progress([], 1), quizResults := map[])))
            && (state.currentUser.None? || state.currentUser.value.id != id ==> r.currentUser == state.currentUser)
  {
  }

  /** UPDATE_USER_PROGRESS replaces the progress of the users with the id, and of a matching current user. */
  lemma UpdateUserProgressEffect(state: AppState, id: string, p: Progress)
    ensures var r := Reduce(state, UpdateUserProgress(id, p));
            && |r.users| == |state.users|
            && (forall i :: 0 <= i < |state.users| ==>
                  if state.users[i].id == id
                  then r.users[i] == state.users[i].(progress := p)
                  else r.users[i] == state.users[i])
            && (state.currentUser.Some? && state.currentUser.value.id == id ==>
                  r.currentUser == Some(state.currentUser.value.(progress := p)))
            && (state.currentUser.None? || state.currentUser.value.id != id ==> r.currentUser == state.currentUser)
  {
  }

  /** DELETE_USER keeps the remaining users in their order: it distributes over concatenation. */
  lemma DeleteUserKeepsOrder(state: AppState, id: string, a: seq<User>, b: seq<User>, u: User)
    ensures Reduce(state.(users := a + b), DeleteUser(id)).users
            == Reduce(state.(users := a), DeleteUser(id)).users + Reduce(state.(users := b), DeleteUser(id)).users
    ensures Reduce(state.(users := [u]), DeleteUser(id)).users == if u.id == id then [] else [u]
  {
    WithoutUserAppend(a, b, id);
    WithoutUserSingle(u, id);
  }

  /** DELETE_WORD keeps the remaining words in their order: it distributes over concatenation. */
  lemma DeleteWordKeepsOrder(state: AppState, id: string, a: seq<Word>, b: seq<Word>, w: Word)
    ensures Reduce(state.(words := a + b), DeleteWord(id)).words
            == Reduce(state.(words := a), DeleteWord(id)).words + Reduce(state.(words := b), DeleteWord(id)).words
    ensures Reduce(state.(words := [w]), DeleteWord(id)).words == if w.id == id then [] else [w]
  {
    FilterWordsAppend(a, b, IdIsNot(id));
  }

  /** UPDATE_WORD replaces exactly the words with a matching id; DELETE_WORD removes exactly those. */
  lemma WordEditsEffect(state: AppState, w: Word, id: string)
    ensures var r := Reduce(state, UpdateWord(w));
            && |r.words| == |state.words|
            && (forall i :: 0 <= i < |state.words| ==>
                  r.words[i] == if state.words[i].id == w.id then w else state.words[i])
            && ((forall i :: 0 <= i < |state.words| ==> state.words[i].id != w.id) ==> r.words == state.words)
    ensures var r := Reduce(state, DeleteWord(id));
            && (forall x :: x in r.words <==> x in state.words && x.id != id)
            && (forall x: Word :: x.id != id ==> multiset(r.words)[x] == multiset(state.words)[x])
  {
    UpdateWordEffect(state, w);
    DeleteWordEffect(state, id);
  }

  lemma UpdateWordEffect(state: AppState, w: Word)
    ensures var r := Reduce(state, UpdateWord(w));
            && |r.words| == |state.words|
            && (forall i :: 0 <= i < |state.words| ==>
                  r.words[i] == if state.words[i].id == w.id then w else state.words[i])
            && ((forall i :: 0 <= i < |state.words| ==> state.words[i].id != w.id) ==> r.words == state.words)
  {
    var r := Reduce(state, UpdateWord(w));
    assert r.words == ReplaceWord(state.words, w);
    if forall i :: 0 <= i < |state.words| ==> state.words[i].id != w.id {
      assert r.words == state.words;
    }
  }

  lemma DeleteWordEffect(state: AppState, id: string)
    ensures var r := Reduce(state, DeleteWord(id));
            && (forall x :: x in r.words <==> x in state.words && x.id != id)
            && (forall x: Word :: x.id != id ==> multiset(r.words)[x] == multiset(state.words)[x])
  {
    var r := Reduce(state, DeleteWord(id));
    assert r.words == FilterWords(state.words, IdIsNot(id));
    FilterWordsCounts(state.words, IdIsNot(id));
  }

  /** LOAD_DATA swaps the two lists only; ADD_USER appends without checking; unknown actions do nothing. */
  lemma BulkAndUnknownActions(state: AppState, users: seq<User>, words: seq<Word>, u: User, tag: string)
    ensures Reduce(state, LoadData(users, words)) == state.(users := users, words := words)
    ensures Reduce(state, AddUser(u)).users == state.users + [u]
    ensures Reduce(state, AddUser(u)).currentUser == state.currentUser
    ensures Reduce(state, Unknown(tag)) == state
  {
  }

  // ----- the current user mirrors its entry in `users` -----

  /** No current user, or the current user is the first entry of `users` with its id. */
  ghost predicate Mirrors(s: AppState) {
    s.currentUser.None? || FindUser(s.users, s.currentUser.value.id) == s.currentUser
  }

  /** A change of one user's progress keeps the current user equal to its entry. */
  lemma {:induction false} ChangeKeepsMirror(state: AppState, id: string, c: UserChange)
    requires Mirrors(state)
    ensures Mirrors(state.(users := ChangeUsers(state.users, id, c),
                           currentUser := MirrorChange(state.currentUser, id, c)))
  {
    if state.currentUser.Some? {
      FindAfterChange(state.users, id, c, state.currentUser.value.id);
    }
  }

  /**
   * Every action except LOAD_DATA, and SET_CURRENT_USER with a user that is not
   * its own entry, keeps the current user equal to its entry in `users`. Those
   * two exceptions are real: see LoadDataCanBreakMirror and
   * SetCurrentUserMirrorsIff.
   */
  lemma {:induction false} MirrorPreserved(state: AppState, action: Action)
    requires Mirrors(state)
    requires !action.LoadData?
    requires action.SetCurrentUser? ==>
               action.user.None? || FindUser(state.users, action.user.value.id) == action.user
    ensures Mirrors(Reduce(state, action))
  {
    match action
    case AddUser(u) =>
      if state.currentUser.Some? {
        AppendKeepsFind(state.users, u, state.currentUser.value.id);
      }
    case DeleteUser(id) =>
      if state.currentUser.Some? && state.currentUser.value.id != id {
        FindWithoutOther(state.users, id, state.currentUser.value.id);
      }
    case UpdateUserProgress(id, p) => ChangeKeepsMirror(state, id, ReplaceProgress(p));
    case UpdateQuizResult(id, level, score, passed) =>
      if state.currentUser.Some? {
        var c := Quiz(level, score, passed);
        FindAfterChange(state.users, id, c, state.currentUser.value.id);
      }
    case ResetUserProgress(id) => ChangeKeepsMirror(state, id, Reset);
    case _ =>
  }

  /**
   * The current user after UPDATE_QUIZ_RESULT is rebuilt from the first list
   * entry with its id, not from itself: it becomes that updated entry with
   * the current user's own id and username. Without a matching current user,
   * or without a matching entry, it stays as it was.
   */
  lemma QuizCurrentUserEffect(state: AppState, id: string, level: int, score: int, passed: bool)
    ensures var r := Reduce(state, UpdateQuizResult(id, level, score, passed));
            state.currentUser.None? || state.currentUser.value.id != id || FindUser(state.users, id).None?
            ==> r.currentUser == state.currentUser
    ensures var r := Reduce(state, UpdateQuizResult(id, level, score, passed));
            state.currentUser.Some? && state.currentUser.value.id == id && FindUser(state.users, id).Some? ==>
              var cur := state.currentUser.value;
              var u := FindUser(state.users, id).value;
              && FindUser(r.users, id).Some?
              && r.currentUser == Some(FindUser(r.users, id).value.(id := cur.id, username := cur.username))
              && r.currentUser.value.quizResults[LevelKey(level)] == QuizResult(score, passed, PriorAttempts(u, level) + 1)
              && (passed ==> level in r.currentUser.value.progress.completedLevels)
              && (!passed ==> r.currentUser.value.progress == u.progress)
  {
    FindAfterChange(state.users, id, Quiz(level, score, passed), id);
  }

  /**
   * SET_CURRENT_USER keeps the current user mirroring its entry exactly when
   * the user set is that entry; a stored copy that differs from the listed
   * user with the same id breaks the mirror.
   */
  lemma SetCurrentUserMirrorsIff(state: AppState, u: User)
    ensures Mirrors(Reduce(state, SetCurrentUser(Some(u)))) <==> FindUser(state.users, u.id) == Some(u)
    ensures Mirrors(Reduce(state, SetCurrentUser(None)))
  {
  }

  /** UPDATE_QUIZ_RESULT leaves `currentUser` alone when no user has the id. */
  lemma QuizMissingUserKeepsCurrent(state: AppState, id: string, level: int, score: int, passed: bool)
    requires forall i :: 0 <= i < |state.users| ==> state.users[i].id != id
    ensures Reduce(state, UpdateQuizResult(id, level, score, passed)).currentUser == state.currentUser
    ensures Reduce(state, UpdateQuizResult(id, level, score, passed)).users == state.users
  {
    var r := Reduce(state, UpdateQuizResult(id, level, score, passed));
    assert r.users == state.users;
  }

  /** LOAD_DATA does not touch `currentUser`, which then has no entry if the new list lacks its id. */
  lemma LoadDataCanBreakMirror(state: AppState, users: seq<User>, words: seq<Word>)
    requires state.currentUser.Some?
    requires forall i :: 0 <= i < |users| ==> users[i].id != state.currentUser.value.id
    ensures !Mirrors(Reduce(state, LoadData(users, words)))
  {
  }

  lemma {:induction false} AppendKeepsFind(users: seq<User>, u: User, k: string)
    requires FindUser(users, k).Some?
    ensures FindUser(users + [u], k) == FindUser(users, k)
  {
    if users[0].id != k {
      assert (users + [u])[1..] == users[1..] + [u];
      AppendKeepsFind(users[1..], u, k);
    }
  }

  lemma {:induction false} FindWithoutOther(users: seq<User>, id: string, k: string)
    requires id != k
    ensures FindUser(WithoutUser(users, id), k) == FindUser(users, k)
  {
    if |users| > 0 {
      FindWithoutOther(users[1..], id, k);
    }
  }
}

=== FILE: seqs.dfy ===
/** Order-preserving de-duplication, the behaviour of `Array.from(new Set(xs))`. */
module Seqs {

  ghost predicate NoDups<T>(s: seq<T>) {
    forall i, j :: 0 <= i < j < |s| ==> s[i] != s[j]
  }

  /** Keeps the first occurrence of every element, in order. */
  function Dedup<T(==)>(s: seq<T>): (r: seq<T>)
    ensures NoDups(r)
    ensures forall i :: 0 <= i < |r| ==> r[i] in s
    ensures forall i :: 0 <= i < |s| ==> s[i] in r
    ensures |r| <= |s|
  {
    if |s| == 0 then []
    else
      var d := Dedup(s[..|s| - 1]);
      var x := s[|s| - 1];
      if x in d then d else d + [x]
  }

  lemma NoDupsCount<T>(s: seq<T>, x: T)
    requires NoDups(s)
    ensures multiset(s)[x] <= 1
  {
    if |s| > 0 {
      var t := s[..|s| - 1];
      assert s == t + [s[|s| - 1]];
      NoDupsCount(t, x);
      if s[|s| - 1] == x {
        assert x !in t;
      }
    }
  }
}

=== FILE: shuffle.dfy ===
/**
 * `shuffleArray`, with its randomness made a parameter: the draws pick, at
 * each step, which of the remaining elements comes next. The input is a
 * value, so it is never mutated.
 */
module Shuffling {
  import Arith

  /** The element at `draws[0] mod |s|` comes first; the rest is shuffled by the remaining draws. */
  function Shuffle<T>(s: seq<T>, draws: seq<nat>): (r: seq<T>)
    ensures |r| == |s|
    ensures multiset(r) == multiset(s)
    decreases |s|
  {
    if |s| == 0 then []
    else
      var i := if |draws| > 0 then draws[0] % |s| else 0;
      var rest := s[..i] + s[i + 1..];
      assert s == s[..i] + [s[i]] + s[i + 1..];
      [s[i]] + Shuffle(rest, if |draws| > 0 then draws[1..] else [])
  }

  /** Every arrangement of s is the outcome of some draws, so no order is ruled out. */
  lemma {:induction false} ShuffleReachesEvery<T>(s: seq<T>, p: seq<T>) returns (draws: seq<nat>)
    requires multiset(p) == multiset(s)
    ensures |draws| == |s|
    ensures Shuffle(s, draws) == p
    decreases |s|
  {
    SameLength(s, p);
    if |s| == 0 {
      draws := [];
    } else {
      var i := IndexOf(s, p[0]);
      SameRest(s, p, i);
      var d := ShuffleReachesEvery(s[..i] + s[i + 1..], p[1..]);
      FirstDraw(s, i, d);
      draws := [i] + d;
      assert p == [p[0]] + p[1..];
    }
  }

  lemma SameLength<T>(s: seq<T>, p: seq<T>)
    requires multiset(p) == multiset(s)
    ensures |p| == |s|
  {
    assert |p| == |multiset(p)|;
    assert |s| == |multiset(s)|;
  }

  lemma IndexOf<T>(s: seq<T>, x: T) returns (i: nat)
    requires x in multiset(s)
    ensures i < |s| && s[i] == x
  {
    i :| 0 <= i < |s| && s[i] == x;
  }

  /** A first draw that is an index picks that element. */
  lemma FirstDraw<T>(s: seq<T>, i: nat, d: seq<nat>)
    requires i < |s|
    ensures Shuffle(s, [i] + d) == [s[i]] + Shuffle(s[..i] + s[i + 1..], d)
  {
    Arith.ModSmall(i, |s|);
    assert ([i] + d)[1..] == d;
  }

  lemma SameRest<T>(s: seq<T>, p: seq<T>, i: nat)
    requires multiset(p) == multiset(s)
    requires i < |s| && |p| > 0 && s[i] == p[0]
    ensures multiset(s[..i] + s[i + 1..]) == multiset(p[1..])
  {
    RemoveAt(s, i);
    RemoveFirst(p);
    calc {
      multiset(s[..i] + s[i + 1..]);
      multiset(s) - multiset{s[i]};
      multiset(p) - multiset{p[0]};
      multiset(p[1..]);
    }
  }

  lemma RemoveFirst<T>(p: seq<T>)
    requires |p| > 0
    ensures multiset(p[1..]) == multiset(p) - multiset{p[0]}
  {
    assert p == [p[0]] + p[1..];
  }

  lemma RemoveAt<T>(s: seq<T>, i: nat)
    requires i < |s|
    ensures multiset(s[..i] + s[i + 1..]) == multiset(s) - multiset{s[i]}
  {
    assert s == s[..i] + [s[i]] + s[i + 1..];
  }

  /** The empty and one-element inputs come back unchanged, whatever the draws. */
  lemma ShuffleSmall<T>(s: seq<T>, draws: seq<nat>)
    requires |s| <= 1
    ensures Shuffle(s, draws) == s
  {
  }
}

=== FILE: text.dfy ===
/**
 * The few string primitives of JavaScript the core relies on: `trim`,
 * `length` (UTF-16 code units), `toLowerCase` restricted to ASCII, and
 * `String(n)` for integers (the decimal rendering used for object keys and
 * in error messages).
 */
module Text {

  /** ECMAScript WhiteSpace and LineTerminator code points: what `trim` removes. */
  predicate IsJsSpace(c: char) {
    || c == '\t' || c == '\n' || c == '\U{000B}' || c == '\U{000C}' || c == '\r'
    || c == ' ' || c == '\U{00A0}' || c == '\U{1680}'
    || ('\U{2000}' <= c <= '\U{200A}')
    || c == '\U{2028}' || c == '\U{2029}' || c == '\U{202F}' || c == '\U{205F}'
    || c == '\U{3000}' || c == '\U{FEFF}'
  }

  ghost predicate AllSpace(s: string) {
    forall k :: 0 <= k < |s| ==> IsJsSpace(s[k])
  }

  /** Number of leading white-space characters. */
  function LeadingSpace(s: string): (n: nat)
    ensures n <= |s|
    ensures AllSpace(s[..n])
    ensures n < |s| ==> !IsJsSpace(s[n])
    ensures n == |s| <==> AllSpace(s)
  {
    if |s| == 0 || !IsJsSpace(s[0]) then 0
    else
      var n := 1 + LeadingSpace(s[1..]);
      assert s[..n] == [s[0]] + s[1..][..n - 1];
      n
  }

  /** Number of trailing white-space characters. */
  function TrailingSpace(s: string): (n: nat)
    ensures n <= |s|
    ensures AllSpace(s[|s| - n..])
    ensures n < |s| ==> !IsJsSpace(s[|s| - n - 1])
    ensures n == |s| <==> AllSpace(s)
  {
    if |s| == 0 || !IsJsSpace(s[|s| - 1]) then 0
    else
      var t := s[..|s| - 1];
      var n := 1 + TrailingSpace(t);
      assert s[|s| - n..] == t[|t| - (n - 1)..] + [s[|s| - 1]];
      n
  }

  /** `String.prototype.trim`: drop white space at both ends. */
  function Trim(s: string): (r: string)
    ensures |r| <= |s|
  {
    var i := LeadingSpace(s);
    var rest := s[i..];
    rest[..|rest| - TrailingSpace(rest)]
  }

  /**
   * The trimmed string is a contiguous piece of s, everything cut away is
   * white space, and it neither starts nor ends with white space.
   */
  lemma TrimShape(s: string)
    ensures var r := Trim(s);
            && (exists i :: 0 <= i <= |s| - |r| && r == s[i..i + |r|]
                            && AllSpace(s[..i]) && AllSpace(s[i + |r|..]))
            && (|r| > 0 ==> !IsJsSpace(r[0]) && !IsJsSpace(r[|r| - 1]))
  {
    var i := LeadingSpace(s);
    var rest := s[i..];
    var j := TrailingSpace(rest);
    var r := rest[..|rest| - j];
    assert r == Trim(s);
    assert r == s[i..i + |r|];
    assert s[i + |r|..] == rest[|rest| - j..];
    assert |r| > 0 ==> r[0] == s[i] && r[|r| - 1] == rest[|rest| - j - 1];
  }

  /** Trimming yields the empty string exactly when s is all white space. */
  lemma TrimEmptyIffAllSpace(s: string)
    ensures Trim(s) == [] <==> AllSpace(s)
  {
    var i := LeadingSpace(s);
    var rest := s[i..];
    if i < |s| {
      assert rest[0] == s[i];
      assert !AllSpace(rest);
    }
  }

  /** A string with no white space at either end is its own trim. */
  lemma TrimTrimmed(s: string)
    requires |s| > 0 ==> !IsJsSpace(s[0]) && !IsJsSpace(s[|s| - 1])
    ensures Trim(s) == s
  {
    assert LeadingSpace(s) == 0;
    assert s[0..] == s;
    assert TrailingSpace(s) == 0;
  }

  /** Trimming twice is trimming once. */
  lemma TrimIdempotent(s: string)
    ensures Trim(Trim(s)) == Trim(s)
  {
    TrimShape(s);
    TrimTrimmed(Trim(s));
  }

  /** `length` of a JavaScript string: UTF-16 code units, two per astral code point. */
  function Utf16Length(s: string): (n: nat)
    ensures |s| <= n <= 2 * |s|
    ensures (forall k :: 0 <= k < |s| ==> s[k] as int <= 0xFFFF) ==> n == |s|
  {
    if |s| == 0 then 0
    else (if s[0] as int > 0xFFFF then 2 else 1) + Utf16Length(s[1..])
  }

  function AsciiLowerChar(c: char): (d: char)
    ensures 'A' <= c <= 'Z' ==> d as int == c as int + 32
    ensures !('A' <= c <= 'Z') ==> d == c
  {
    if 'A' <= c <= 'Z' then (c as int + 32) as char else c
  }

  /** `toLowerCase`, restricted to the ASCII letters. */
  function AsciiLower(s: string): (r: string)
    ensures |r| == |s|
    ensures forall k :: 0 <= k < |s| ==> r[k] == AsciiLowerChar(s[k])
  {
    seq(|s|, k requires 0 <= k < |s| => AsciiLowerChar(s[k]))
  }

  // ----- decimal rendering of integers -----

  function DigitChar(d: nat): (c: char)
    requires d < 10
    ensures '0' <= c <= '9'
  {
    ('0' as int + d) as char
  }

  function DigitValue(c: char): nat {
    if '0' <= c <= '9' then c as int - '0' as int else 0
  }

  /** Decimal digits of n, most significant first, no leading zero. */
  function NatToString(n: nat): (s: string)
    ensures |s| > 0
    ensures forall k :: 0 <= k < |s| ==> '0' <= s[k] <= '9'
  {
    if n < 10 then [DigitChar(n)]
    else NatToString(n / 10) + [DigitChar(n % 10)]
  }

  /** `String(i)` for an integer i. */
  function IntToString(i: int): (s: string)
    ensures |s| > 0
    ensures s[0] == '-' <==> i < 0
  {
    if i < 0 then "-" + NatToString(-i) else NatToString(i)
  }

  /** Value of a string of decimal digits. */
  function DigitsValue(s: string): nat {
    if |s| == 0 then 0 else 10 * DigitsValue(s[..|s| - 1]) + DigitValue(s[|s| - 1])
  }

  /** Reading back a rendered integer. */
  function ParseInt(s: string): int {
    if |s| > 0 && s[0] == '-' then -(DigitsValue(s[1..]) as int) else DigitsValue(s)
  }

  lemma {:induction false} NatToStringRoundTrip(n: nat)
    ensures DigitsValue(NatToString(n)) == n
  {
    if n >= 10 {
      var s := NatToString(n);
      assert s[..|s| - 1] == NatToString(n / 10);
      NatToStringRoundTrip(n / 10);
    }
  }

  lemma IntToStringRoundTrip(i: int)
    ensures ParseInt(IntToString(i)) == i
  {
    if i < 0 {
      assert IntToString(i)[1..] == NatToString(-i);
      NatToStringRoundTrip(-i);
    } else {
      NatToStringRoundTrip(i);
    }
  }

  /** Distinct integers render to distinct strings, so distinct levels use distinct keys. */
  lemma IntToStringInjective(a: int, b: int)
    ensures IntToString(a) == IntToString(b) ==> a == b
  {
    IntToStringRoundTrip(a);
    IntToStringRoundTrip(b);
  }
}

=== FILE: validation.dfy ===
/**
 * `validateImportData`: the check an import payload must pass before
 * anything is merged or written. It accumulates one error per offending
 * field, and it throws when a user or word entry is `null`.
 */
module Validation {
  import opened Json
  import Text

  datatype UserField = UId | UUsername | UProgress | UCompletedLevels | UCurrentLevel | UQuizResults
  datatype WordField = WId | WEmoji | WEnglish | WHebrew | WLevel

  datatype ValidationError =
    | NotAnObject
    | BadVersion
    | UsersNotArray
    | WordsNotArray
    | UserError(index: nat, userField: UserField)
    | WordError(index: nat, wordField: WordField)

  /** The message the source reports for an error; entries are numbered from 1. */
  function Message(e: ValidationError): string {
    match e
    case NotAnObject => "Invalid data format: expected JSON object"
    case BadVersion => "Invalid version format"
    case UsersNotArray => "Users data must be an array"
    case WordsNotArray => "Words data must be an array"
    case UserError(i, f) => "User " + Text.IntToString(i + 1) + ": " + UserFieldText(f)
    case WordError(i, f) => "Word " + Text.IntToString(i + 1) + ": " + WordFieldText(f)
  }

  function UserFieldText(f: UserField): string {
    match f
    case UId => "missing or invalid ID"
    case UUsername => "missing or invalid username"
    case UProgress => "missing or invalid progress"
    case UCompletedLevels => "completedLevels must be an array"
    case UCurrentLevel => "currentLevel must be a number"
    case UQuizResults => "missing or invalid quizResults"
  }

  function WordFieldText(f: WordField): string {
    match f
    case WId => "missing or invalid ID"
    case WEmoji => "missing or invalid emoji"
    case WEnglish => "missing or invalid english"
    case WHebrew => "missing or invalid hebrew"
    case WLevel => "level must be a positive number"
  }

  datatype Verdict = Verdict(isValid: bool, errors: seq<ValidationError>)

  /** Either the verdict, or the TypeError raised on a `null` entry. */
  datatype ValidationOutcome = Threw | Returned(verdict: Verdict)

  // ----- the checks, in the order the source makes them -----

  /** The failing fields of one user entry. */
  function UserFailures(u: Json): seq<UserField> {
    var p := Get(u, "progress");
    (if IsNonEmptyString(Get(u, "id")) then [] else [UId])
    + (if IsNonEmptyString(Get(u, "username")) then [] else [UUsername])
    + (if !Truthy(p) || TypeOf(p) != TObject then [UProgress]
       else (if Get(p, "completedLevels").JArray? then [] else [UCompletedLevels])
            + (if TypeOf(Get(p, "currentLevel")) == TNumber then [] else [UCurrentLevel]))
    + (if Truthy(Get(u, "quizResults")) && TypeOf(Get(u, "quizResults")) == TObject then [] else [UQuizResults])
  }

  /** The failing fields of one word entry. */
  function WordFailures(w: Json): seq<WordField> {
    var level := Get(w, "level");
    (if IsNonEmptyString(Get(w, "id")) then [] else [WId])
    + (if IsNonEmptyString(Get(w, "emoji")) then [] else [WEmoji])
    + (if IsNonEmptyString(Get(w, "english")) then [] else [WEnglish])
    + (if IsNonEmptyString(Get(w, "hebrew")) then [] else [WHebrew])
    + (if TypeOf(level) != TNumber || level.n < 1 then [WLevel] else [])
  }

  function UserErrorsFor(i: nat, fs: seq<UserField>): (r: seq<ValidationError>)
    ensures |r| == |fs|
    ensures forall e :: e in r <==> e.UserError? && e.index == i && e.userField in fs
  {
    if |fs| == 0 then [] else [UserError(i, fs[0])] + UserErrorsFor(i, fs[1..])
  }

  function WordErrorsFor(i: nat, fs: seq<WordField>): (r: seq<ValidationError>)
    ensures |r| == |fs|
    ensures forall e :: e in r <==> e.WordError? && e.index == i && e.wordField in fs
  {
    if |fs| == 0 then [] else [WordError(i, fs[0])] + WordErrorsFor(i, fs[1..])
  }

  /** The errors of `users.forEach`, entry by entry. */
  function UsersErrors(users: seq<Json>): (r: seq<ValidationError>)
    ensures forall e :: e in r ==> e.UserError? && e.index < |users|
    ensures forall i: nat, f :: UserError(i, f) in r <==> i < |users| && f in UserFailures(users[i])
    ensures r == [] <==> forall i :: 0 <= i < |users| ==> UserFailures(users[i]) == []
  {
    if |users| == 0 then []
    else
      var n := |users| - 1;
      var front := UsersErrors(users[..n]);
      assert forall i :: 0 <= i < n ==> users[..n][i] == users[i];
      front + UserErrorsFor(n, UserFailures(users[n]))
  }

  /** The errors of `words.forEach`, entry by entry. */
  function WordsErrors(words: seq<Json>): (r: seq<ValidationError>)
    ensures forall e :: e in r ==> e.WordError? && e.index < |words|
    ensures forall i: nat, f :: WordError(i, f) in r <==> i < |words| && f in WordFailures(words[i])
    ensures r == [] <==> forall i :: 0 <= i < |words| ==> WordFailures(words[i]) == []
  {
    if |words| == 0 then []
    else
      var n := |words| - 1;
      var front := WordsErrors(words[..n]);
      assert forall i :: 0 <= i < n ==> words[..n][i] == words[i];
      front + WordErrorsFor(n, WordFailures(words[n]))
  }

  /** Whether iterating a present array field reaches a `null` entry and throws. */
  predicate HitsNull(list: Json) {
    Truthy(list) && list.JArray? && exists i :: 0 <= i < |list.items| && IsNullish(list.items[i])
  }

  /** Errors contributed by a present `users`/`words` field. */
  function ListErrors(list: Json, notArray: ValidationError, isUsers: bool): seq<ValidationError> {
    if !Truthy(list) then []
    else if !list.JArray? then [notArray]
    else if isUsers then UsersErrors(list.items)
    else WordsErrors(list.items)
  }

  /** `validateImportData(data)`. */
  function Validate(data: Json): (r: ValidationOutcome)
    // a non-object is rejected with exactly one error
    ensures !Truthy(data) || TypeOf(data) != TObject ==> r == Returned(Verdict(false, [NotAnObject]))
    // the verdict is valid exactly when no error was collected
    ensures r.Returned? ==> (r.verdict.isValid <==> |r.verdict.errors| == 0)
    // it throws exactly when an object payload has a null user or word entry
    ensures r.Threw? <==> Truthy(data) && TypeOf(data) == TObject
                          && (HitsNull(Get(data, "users")) || HitsNull(Get(data, "words")))
  {
    if !Truthy(data) || TypeOf(data) != TObject then Returned(Verdict(false, [NotAnObject]))
    else
      var users := Get(data, "users");
      var words := Get(data, "words");
      if HitsNull(users) || HitsNull(words) then Threw
      else
        var version := Get(data, "version");
        var errors :=
          (if Truthy(version) && TypeOf(version) != TString then [BadVersion] else [])
          + ListErrors(users, UsersNotArray, true)
          + ListErrors(words, WordsNotArray, false);
        Returned(Verdict(|errors| == 0, errors))
  }

  // ----- an independent statement of what a valid payload is -----

  /** A string value with at least one character. */
  predicate NonEmptyText(j: Json) {
    j.JString? && |j.s| > 0
  }

  predicate WellFormedUser(u: Json) {
    && u.JObject?
    && NonEmptyText(Get(u, "id"))
    && NonEmptyText(Get(u, "username"))
    && (var p := Get(u, "progress");
        && (p.JObject? || p.JArray?)
        && Get(p, "completedLevels").JArray?
        && Get(p, "currentLevel").JNumber?)
    && (Get(u, "quizResults").JObject? || Get(u, "quizResults").JArray?)
  }

  predicate WellFormedWord(w: Json) {
    && w.JObject?
    && NonEmptyText(Get(w, "id"))
    && NonEmptyText(Get(w, "emoji"))
    && NonEmptyText(Get(w, "english"))
    && NonEmptyText(Get(w, "hebrew"))
    && Get(w, "level").JNumber? && Get(w, "level").n >= 1
  }

  /** A field that is absent or falsy, or an array whose every entry passes `ok`. */
  ghost predicate WellFormedList(list: Json, users: bool) {
    !Truthy(list)
    || (list.JArray? && forall i :: 0 <= i < |list.items| ==>
          if users then WellFormedUser(list.items[i]) else WellFormedWord(list.items[i]))
  }

  ghost predicate WellFormedPayload(data: Json) {
    && (data.JObject? || data.JArray?)
    && (var v := Get(data, "version"); !Truthy(v) || v.JString?)
    && WellFormedList(Get(data, "users"), true)
    && WellFormedList(Get(data, "words"), false)
  }

  lemma UserFailuresEmptyIff(u: Json)
    requires !IsNullish(u)
    ensures UserFailures(u) == [] <==> WellFormedUser(u)
  {
    if !u.JObject? {
      assert UId in UserFailures(u);
    }
  }

  lemma WordFailuresEmptyIff(w: Json)
    requires !IsNullish(w)
    ensures WordFailures(w) == [] <==> WellFormedWord(w)
  {
    if !w.JObject? {
      assert WId in WordFailures(w);
    }
  }

  /** A users/words field is accepted without throwing exactly when it is well formed. */
  lemma ListAcceptedIff(list: Json, isUsers: bool, notArray: ValidationError)
    requires notArray.UsersNotArray? || notArray.WordsNotArray?
    ensures !HitsNull(list) && ListErrors(list, notArray, isUsers) == [] <==> WellFormedList(list, isUsers)
  {
    if Truthy(list) && list.JArray? {
      var items := list.items;
      if isUsers {
        forall i | 0 <= i < |items| && !IsNullish(items[i])
          ensures UserFailures(items[i]) == [] <==> WellFormedUser(items[i])
        {
          UserFailuresEmptyIff(items[i]);
        }
      } else {
        forall i | 0 <= i < |items| && !IsNullish(items[i])
          ensures WordFailures(items[i]) == [] <==> WellFormedWord(items[i])
        {
          WordFailuresEmptyIff(items[i]);
        }
      }
    }
  }

  /** The validator accepts exactly the well-formed payloads. */
  lemma ValidIffWellFormed(data: Json)
    ensures Validate(data) == Returned(Verdict(true, [])) <==> WellFormedPayload(data)
  {
    ListAcceptedIff(Get(data, "users"), true, UsersNotArray);
    ListAcceptedIff(Get(data, "words"), false, WordsNotArray);
  }

  /** A present `users` or `words` field that is not an array adds exactly one error for it. */
  lemma NotArrayReportedOnce(data: Json)
    requires Validate(data).Returned?
    requires Truthy(data) && TypeOf(data) == TObject
    ensures var errs := Validate(data).verdict.errors;
            var users := Get(data, "users");
            var words := Get(data, "words");
            && multiset(errs)[UsersNotArray] == (if Truthy(users) && !users.JArray? then 1 else 0)
            && multiset(errs)[WordsNotArray] == (if Truthy(words) && !words.JArray? then 1 else 0)
  {
    var users := Get(data, "users");
    var words := Get(data, "words");
    if users.JArray? { NoListError(UsersErrors(users.items)); }
    if words.JArray? { NoListError(WordsErrors(words.items)); }
  }

  lemma NoListError(errs: seq<ValidationError>)
    requires forall e :: e in errs ==> e.UserError? || e.WordError?
    ensures multiset(errs)[UsersNotArray] == 0 && multiset(errs)[WordsNotArray] == 0
  {
    assert UsersNotArray !in errs && WordsNotArray !in errs;
  }

  /** The errors of an accepted-for-checking payload: version, then users, then words. */
  lemma ErrorsShape(data: Json)
    requires Validate(data).Returned?
    requires Truthy(data) && TypeOf(data) == TObject
    ensures forall i: nat, f :: UserError(i, f) in Validate(data).verdict.errors
              <==> UserError(i, f) in ListErrors(Get(data, "users"), UsersNotArray, true)
    ensures forall i: nat, f :: WordError(i, f) in Validate(data).verdict.errors
              <==> WordError(i, f) in ListErrors(Get(data, "words"), WordsNotArray, false)
  {
  }

  /** Each checked field of a user entry is reported exactly when it is bad. */
  lemma UserEntryErrorsExact(data: Json, i: nat)
    requires Validate(data).Returned?
    requires Truthy(data) && TypeOf(data) == TObject
    requires Get(data, "users").JArray? && i < |Get(data, "users").items|
    ensures var errs := Validate(data).verdict.errors;
            var u := Get(data, "users").items[i];
            var p := Get(u, "progress");
            && (UserError(i, UId) in errs <==> !IsNonEmptyString(Get(u, "id")))
            && (UserError(i, UUsername) in errs <==> !IsNonEmptyString(Get(u, "username")))
            && (UserError(i, UProgress) in errs <==> !(Truthy(p) && TypeOf(p) == TObject))
            && (UserError(i, UCompletedLevels) in errs <==>
                  Truthy(p) && TypeOf(p) == TObject && !Get(p, "completedLevels").JArray?)
            && (UserError(i, UCurrentLevel) in errs <==>
                  Truthy(p) && TypeOf(p) == TObject && TypeOf(Get(p, "currentLevel")) != TNumber)
            && (UserError(i, UQuizResults) in errs <==>
                  !(Truthy(Get(u, "quizResults")) && TypeOf(Get(u, "quizResults")) == TObject))
  {
    ErrorsShape(data);
    var u := Get(data, "users").items[i];
    assert forall f :: UserError(i, f) in Validate(data).verdict.errors <==> f in UserFailures(u);
    UserFailureFields(u);
  }

  lemma UserFailureFields(u: Json)
    ensures var p := Get(u, "progress");
            && (UId in UserFailures(u) <==> !IsNonEmptyString(Get(u, "id")))
            && (UUsername in UserFailures(u) <==> !IsNonEmptyString(Get(u, "username")))
            && (UProgress in UserFailures(u) <==> !(Truthy(p) && TypeOf(p) == TObject))
            && (UCompletedLevels in UserFailures(u) <==>
                  Truthy(p) && TypeOf(p) == TObject && !Get(p, "completedLevels").JArray?)
            && (UCurrentLevel in UserFailures(u) <==>
                  Truthy(p) && TypeOf(p) == TObject && TypeOf(Get(p, "currentLevel")) != TNumber)
            && (UQuizResults in UserFailures(u) <==>
                  !(Truthy(Get(u, "quizResults")) && TypeOf(Get(u, "quizResults")) == TObject))
  {
    UserOuterFields(u);
    UserProgressFields(u);
  }

  /** The four pushes of a user entry, the progress one holding the two inner checks. */
  function UserPieces(u: Json): seq<seq<UserField>> {
    var p := Get(u, "progress");
    var q := Get(u, "quizResults");
    [ if IsNonEmptyString(Get(u, "id")) then [] else [UId],
      if IsNonEmptyString(Get(u, "username")) then [] else [UUsername],
      if !Truthy(p) || TypeOf(p) != TObject then [UProgress]
      else (if Get(p, "completedLevels").JArray? then [] else [UCompletedLevels])
           + (if TypeOf(Get(p, "currentLevel")) == TNumber then [] else [UCurrentLevel]),
      if Truthy(q) && TypeOf(q) == TObject then [] else [UQuizResults] ]
  }

  lemma UserOuterFields(u: Json)
    ensures UId in UserFailures(u) <==> !IsNonEmptyString(Get(u, "id"))
    ensures UUsername in UserFailures(u) <==> !IsNonEmptyString(Get(u, "username"))
    ensures UQuizResults in UserFailures(u) <==>
              !(Truthy(Get(u, "quizResults")) && TypeOf(Get(u, "quizResults")) == TObject)
  {
    var ps := UserPieces(u);
    assert UserFailures(u) == ps[0] + ps[1] + ps[2] + ps[3];
    assert UId !in ps[2] && UUsername !in ps[2] && UQuizResults !in ps[2];
  }

  lemma UserProgressFields(u: Json)
    ensures var p := Get(u, "progress");
            && (UProgress in UserFailures(u) <==> !(Truthy(p) && TypeOf(p) == TObject))
            && (UCompletedLevels in UserFailures(u) <==>
                  Truthy(p) && TypeOf(p) == TObject && !Get(p, "completedLevels").JArray?)
            && (UCurrentLevel in UserFailures(u) <==>
                  Truthy(p) && TypeOf(p) == TObject && TypeOf(Get(p, "currentLevel")) != TNumber)
  {
    var ps := UserPieces(u);
    assert UserFailures(u) == ps[0] + ps[1] + ps[2] + ps[3];
    assert forall f :: f in ps[0] + ps[1] + ps[3] ==> f == UId || f == UUsername || f == UQuizResults;
  }

  lemma WordFailureFields(w: Json)
    ensures && (WId in WordFailures(w) <==> !IsNonEmptyString(Get(w, "id")))
            && (WEmoji in WordFailures(w) <==> !IsNonEmptyString(Get(w, "emoji")))
            && (WEnglish in WordFailures(w) <==> !IsNonEmptyString(Get(w, "english")))
            && (WHebrew in WordFailures(w) <==> !IsNonEmptyString(Get(w, "hebrew")))
            && (WLevel in WordFailures(w) <==> !(Get(w, "level").JNumber? && Get(w, "level").n >= 1))
  {
    var level := Get(w, "level");
    var front := (if IsNonEmptyString(Get(w, "id")) then [] else [WId])
                 + (if IsNonEmptyString(Get(w, "emoji")) then [] else [WEmoji])
                 + (if IsNonEmptyString(Get(w, "english")) then [] else [WEnglish])
                 + (if IsNonEmptyString(Get(w, "hebrew")) then [] else [WHebrew]);
    var last := if TypeOf(level) != TNumber || level.n < 1 then [WLevel] else [];
    assert WordFailures(w) == front + last;
    assert WLevel !in front;
  }

  /** Each checked field of a word entry is reported exactly when it is bad. */
  lemma WordEntryErrorsExact(data: Json, i: nat)
    requires Validate(data).Returned?
    requires Truthy(data) && TypeOf(data) == TObject
    requires Get(data, "words").JArray? && i < |Get(data, "words").items|
    ensures var errs := Validate(data).verdict.errors;
            var w := Get(data, "words").items[i];
            && (WordError(i, WId) in errs <==> !IsNonEmptyString(Get(w, "id")))
            && (WordError(i, WEmoji) in errs <==> !IsNonEmptyString(Get(w, "emoji")))
            && (WordError(i, WEnglish) in errs <==> !IsNonEmptyString(Get(w, "english")))
            && (WordError(i, WHebrew) in errs <==> !IsNonEmptyString(Get(w, "hebrew")))
            && (WordError(i, WLevel) in errs <==> !(Get(w, "level").JNumber? && Get(w, "level").n >= 1))
  {
    ErrorsShape(data);
    var w := Get(data, "words").items[i];
    assert forall f :: WordError(i, f) in Validate(data).verdict.errors <==> f in WordFailures(w);
    WordFailureFields(w);
  }
}

=== FILE: wordform.dfy ===
/** The word form of the word list manager: validation and submission. */
module WordForm {
  import opened Optional
  import opened Text
  import opened Domain
  import opened Reducer

  /** The form's inputs; the level input always holds a number. */
  datatype FormData = FormData(emoji: string, english: string, hebrew: string, level: int)

  /** The form's fields, in the order their checks run. */
  datatype FormField = EmojiField | EnglishField | HebrewField | LevelField

  function FieldRank(f: FormField): nat {
    match f
    case EmojiField => 0
    case EnglishField => 1
    case HebrewField => 2
    case LevelField => 3
  }

  function FieldError(f: FormField): string {
    match f
    case EmojiField => "Emoji is required"
    case EnglishField => "English word is required"
    case HebrewField => "Hebrew translation is required"
    case LevelField => "Level must be at least 1"
  }

  /** The fields whose flag is set, in form order. */
  function Flagged(emoji: bool, english: bool, hebrew: bool, level: bool): (r: seq<FormField>)
    ensures EmojiField in r <==> emoji
    ensures EnglishField in r <==> english
    ensures HebrewField in r <==> hebrew
    ensures LevelField in r <==> level
    ensures forall i, j :: 0 <= i < j < |r| ==> FieldRank(r[i]) < FieldRank(r[j])
    ensures r == [] <==> !emoji && !english && !hebrew && !level
  {
    (if emoji then [EmojiField] else [])
    + (if english then [EnglishField] else [])
    + (if hebrew then [HebrewField] else [])
    + (if level then [LevelField] else [])
  }

  /**
   * `validateForm()`: the fields holding an error, each once and in form
   * order. The form is valid when there is none.
   */
  function ValidateForm(form: FormData): (r: seq<FormField>)
    ensures EmojiField in r <==> |Trim(form.emoji)| == 0
    ensures EnglishField in r <==> |Trim(form.english)| == 0
    ensures HebrewField in r <==> |Trim(form.hebrew)| == 0
    ensures LevelField in r <==> form.level < 1
    ensures forall i, j :: 0 <= i < j < |r| ==> FieldRank(r[i]) < FieldRank(r[j])
    ensures r == [] <==>
              |Trim(form.emoji)| > 0 && |Trim(form.english)| > 0 && |Trim(form.hebrew)| > 0 && form.level >= 1
  {
    Flagged(|Trim(form.emoji)| == 0, |Trim(form.english)| == 0, |Trim(form.hebrew)| == 0, form.level < 1)
  }

  datatype SubmitOutcome = Invalid(errors: seq<FormField>) | Submitted(word: Word, state: AppState)

  /** The word a valid form submits: the edited word with new fields, or a new word. */
  function SubmittedWord(form: FormData, editing: Option<Word>, newId: string): (w: Word)
    ensures w.emoji == Trim(form.emoji) && w.english == Trim(form.english)
    ensures w.hebrew == Trim(form.hebrew) && w.level == form.level
    ensures w.id == if editing.Some? then editing.value.id else newId
  {
    match editing
    case Some(edited) =>
      edited.(emoji := Trim(form.emoji), english := Trim(form.english), hebrew := Trim(form.hebrew), level := form.level)
    case None => Word(newId, Trim(form.emoji), Trim(form.english), Trim(form.hebrew), form.level)
  }

  /**
   * `handleSubmit`: an invalid form dispatches nothing; otherwise the word
   * being edited is updated in place (keeping its id), or a new word with
   * the generated id is added.
   */
  function HandleSubmit(state: AppState, form: FormData, editing: Option<Word>, newId: string): (r: SubmitOutcome)
    ensures r.Invalid? <==> ValidateForm(form) != []
    ensures r.Invalid? ==> r.errors == ValidateForm(form)
    ensures r.Submitted? ==>
              && r.word == SubmittedWord(form, editing, newId)
              && |r.word.emoji| > 0 && |r.word.english| > 0 && |r.word.hebrew| > 0 && r.word.level >= 1
              && r.state.users == state.users && r.state.currentUser == state.currentUser
  {
    var errors := ValidateForm(form);
    if errors != [] then Invalid(errors)
    else
      var w := SubmittedWord(form, editing, newId);
      assert |w.emoji| > 0 && |w.english| > 0 && |w.hebrew| > 0 && w.level >= 1;
      if editing.Some? then Submitted(w, Reduce(state, UpdateWord(w)))
      else Submitted(w, Reduce(state, AddWord(w)))
  }

  /**
   * A submitted edit replaces every word with the edited id, in place; a
   * submitted new word is appended.
   */
  lemma SubmitEffect(state: AppState, form: FormData, editing: Option<Word>, newId: string)
    ensures var r := HandleSubmit(state, form, editing, newId);
            r.Submitted? && editing.Some? ==>
              && |r.state.words| == |state.words|
              && forall i :: 0 <= i < |state.words| ==>
                   r.state.words[i] == if state.words[i].id == r.word.id then r.word else state.words[i]
    ensures var r := HandleSubmit(state, form, editing, newId);
            r.Submitted? && editing.None? ==> r.state.words == state.words + [r.word]
  {
    if ValidateForm(form) == [] {
      var w := SubmittedWord(form, editing, newId);
      if editing.Some? {
        SubmitEdit(state, form, editing, newId, w);
      } else {
        SubmitAdd(state, form, newId, w);
      }
    }
  }

  lemma SubmitEdit(state: AppState, form: FormData, editing: Option<Word>, newId: string, w: Word)
    requires ValidateForm(form) == [] && editing.Some?
    requires w == SubmittedWord(form, editing, newId)
    ensures HandleSubmit(state, form, editing, newId) == Submitted(w, Reduce(state, UpdateWord(w)))
    ensures var words := Reduce(state, UpdateWord(w)).words;
            && |words| == |state.words|
            && forall i :: 0 <= i < |state.words| ==>
                 words[i] == if state.words[i].id == w.id then w else state.words[i]
  {
    UpdateWordEffect(state, w);
  }

  lemma SubmitAdd(state: AppState, form: FormData, newId: string, w: Word)
    requires ValidateForm(form) == []
    requires w == SubmittedWord(form, None, newId)
    ensures HandleSubmit(state, form, None, newId) == Submitted(w, Reduce(state, AddWord(w)))
    ensures Reduce(state, AddWord(w)).words == state.words + [w]
  {
  }

  /** `handleEdit(word)`: the form filled from the word. */
  function FormOf(w: Word): FormData {
    FormData(w.emoji, w.english, w.hebrew, w.level)
  }

  /** A field already trimmed and not blank. */
  predicate Tidy(s: string) {
    |s| > 0 && !IsJsSpace(s[0]) && !IsJsSpace(s[|s| - 1])
  }

  /**
   * Opening a tidy word for editing and submitting without changes
   * dispatches that same word, so the word list is unchanged.
   */
  lemma EditUnchangedIsIdentity(state: AppState, w: Word, newId: string)
    requires Tidy(w.emoji) && Tidy(w.english) && Tidy(w.hebrew) && w.level >= 1
    requires w in state.words
    requires forall i, j :: 0 <= i < |state.words| && 0 <= j < |state.words| && state.words[i].id == state.words[j].id ==> i == j
    ensures HandleSubmit(state, FormOf(w), Some(w), newId) == Submitted(w, state)
  {
    TrimTrimmed(w.emoji);
    TrimTrimmed(w.english);
    TrimTrimmed(w.hebrew);
    var r := HandleSubmit(state, FormOf(w), Some(w), newId);
    assert r.word == w;
    var k :| 0 <= k < |state.words| && state.words[k] == w;
    assert r.state.words == state.words;
  }
}
